=== FILE: README.md ===
# MythTV notification center: a verified model

This project models the bookkeeping of MythTV's on-screen notification
center (`mythtv/libs/libmythui/mythuinotificationcenter.cpp`) in Dafny. Line
numbers written `:N` in the prose below refer to that file.

- `Center.NotificationCenter` is `MythUINotificationCenter`. It holds:
  - the id counter;
  - the registrations, from id to screen;
  - the clients, from id to the client that registered it;
  - the suspended ids;
  - the queue of pending notifications;
  - the ordered list of screens on display;
  - the screens due for deletion.

  Its methods are `Register`, `UnRegister`, `Queue`, `ProcessQueue` (with
  `CreateScreen` and the two halves of its loop body), `ScreenDeleted`,
  `DeleteAllScreens`, `InsertScreen`, `RemoveScreen`, `AdjustScreenPosition`,
  `ProcessTimer` and `ScreenCreated`. `Register`, `UnRegister`, `Queue` and
  `ProcessQueue` run whole under the center's lock (:624, :674, :781, :799).
  `ScreenDeleted` takes no lock of its own. It runs inside `ProcessQueue`'s
  lock when `DeleteAllScreens` pops a screen, but without any lock when a
  screen's timer pops it (:443) or when `GetNotificationScreens` deletes
  screens before taking the lock (:959-961). Each method is one atomic method
  here.
- `Screens.NotificationScreen` is `MythUINotificationScreen`. It holds:
  - its id and duration;
  - the `m_content` and `m_update` masks, as 32-bit vectors with the bits
    kImage = 1, kDuration = 2, kMetaData = 4, kStyle = 8 and kAll = all bits;
  - artwork, playback progress, the four metadata tags and the style;
  - the fullscreen flag and its stack rank;
  - the armed timer interval;
  - the `m_created` and `m_added` flags;
  - its position.

  Its methods are the constructors, `operator=` (`Assign`), `SetNotification`,
  the `Update*` setters, `SetSingleShotTimer`, `AdjustYPosition`,
  `AdjustIndex`, `Create` and `Init`.
- `Notifications` holds the notification values. The `dynamic_cast` on the
  notification class becomes the `Kind` datatype: plain, image, playback or
  media (both). `Update` versus `New` is the `ntype` field.
- `Themes` holds the theme-name choice of `Create`. Loading a window from
  `notification-ui.xml` becomes a table from window name to the window's
  position, height and child widgets.
- `Stacking` gives the y offset of a screen at a given rank.
- `Lists` gives the QList operations used (`removeAll`, `indexOf`) as
  functions on sequences.

Several parts of the code do something other than what its own comments,
log messages or names suggest. The model follows the code:

- **Queue demotes only a local copy.** The check at :636-643 is commented as
  making sure "the right caller" registers a notification, and it logs "not
  registered for id". But it only sets the local variable `id` to -1. The
  queued clone keeps its original id. `ProcessQueue` then inserts a null
  registration for that id through QMap's `operator[]` and registers the new
  screen there. `Center.NotificationCenter.Queue` and `ProcessQueue` say
  exactly this. It is listed under "Findings" below, together with the
  corrected `QueueDemoting`.
- **Metadata is overwritten whenever a notification carries some.** The
  comment on `UpdateMetaData` (:364-368) says that, with the metadata flag
  set, a null tag leaves the text unchanged. `SetNotification` clears
  `m_update` at :97, and only sets kMetaData after it has called
  `UpdateMetaData` (:126-130). So the keep-on-null test never fires on that
  path. A notification with a non-empty DMAP overwrites all four tags, and a
  tag it lacks becomes null. An empty DMAP leaves all four tags as they were.
  - `Screens.NotificationScreen.UpdateMetaData` states the general rule.
  - `SetNotification` states what its call actually does.
- **A negative duration on a registered id leaves the timer alone.** The
  comment at :471 says only a registered application can display a
  non-expiring notification. The test at :472-473 returns before
  `m_timer->stop()` (:480), so a timer already running keeps running. A
  duration of 0 arms the 5000 ms default. A negative duration on an id <= 0
  does too.
- **Ranks are not always contiguous.** `ProcessQueue` gives a screen the rank
  of its position only when it inserts it (:729-741). `ScreenDeleted` and
  `DeleteAllScreens` move later screens up one rank, which keeps ranks equal
  to positions. But a fullscreen screen already on the list that receives a
  New non-fullscreen notification keeps its old rank. `Center.StaleRank`
  exhibits such a center: it ends with a non-fullscreen screen at position 1
  with rank 0. So the model proves for each list operation that it keeps the
  stacking gap-free (`Stacked`), and `ProcessQueue` does not promise it.
- **The queue is emptied before its loop.** `ProcessQueue` walks the queue
  with Qt's `foreach`, which iterates over a copy, and clears it afterwards
  (:687-748). Nothing in the loop reads the queue, so `ShowQueued` empties it
  first. The resulting state is the same.
- **Insertion never shifts other screens.** `InsertScreen` always appends. The
  shift of later screens in `ProcessQueue` is dead code. `Show` asserts that
  the new screen is last instead of modelling that branch.

## Model

| member | source | states |
|---|---|---|
| Themes.ResolveTheme | mythtv/libs/libmythui/mythuinotificationcenter.cpp:164-186 | The styled variant is loaded whenever the theme has it. Otherwise the main theme is loaded when it exists. Loading fails iff neither exists. The name loaded is always one of the two and always a window of the theme. |
| Stacking.RanksDoNotOverlap | mythtv/libs/libmythui/mythuinotificationcenter.cpp:410-419 | Two screens of the same height at ranks i < j are at least that height plus HGAP apart vertically, so they never overlap. |
| Screens.ArmedInterval | mythtv/libs/libmythui/mythuinotificationcenter.cpp:475-476 | The armed interval is `s*1000` clamped from below to DEFAULT_DURATION (5000 ms). It is one of the two and at least both. |
| Screens.UpdateFlags | mythtv/libs/libmythui/mythuinotificationcenter.cpp:94-141 | Each of the four bits of the rebuilt `m_update` is set iff its condition holds, and no other bit is set. kImage means image content. kDuration means playback content. kMetaData means non-empty metadata or not an Update. kStyle means a non-empty style. |
| Screens.Merge | mythtv/libs/libmythui/mythuinotificationcenter.cpp:370-394 | A tag present in the incoming data is adopted. A missing tag keeps the current text iff kMetaData is set (or the text was null already); otherwise the field becomes null. |
| Screens.AdoptedArtwork | mythtv/libs/libmythui/mythuinotificationcenter.cpp:99-115 | A non-image notification leaves the artwork alone. An image notification with a path replaces only the path. One without a path replaces only the image. |
| Screens.NotificationScreen.FromNotification | mythtv/libs/libmythui/mythuinotificationcenter.cpp:55-68 | A screen made from a notification is not created or added, has rank 0 and `m_update` = the notification's flags. Content and fullscreen are latched only for a non-Update notification. It takes the id, duration, style, tags and artwork, and arms the timer unless the id is positive and the duration negative. |
| Screens.NotificationScreen.Copy | mythtv/libs/libmythui/mythuinotificationcenter.cpp:70-82 | The copy holds the original's content (id, artwork, tags, duration, playback, content, fullscreen, rank, style). It has `m_update` = kAll, is neither created nor added, and has no armed timer. |
| Screens.NotificationScreen.Assign | mythtv/libs/libmythui/mythuinotificationcenter.cpp:446-467 | `operator=` copies every content field of the source screen and sets `m_update` to kAll. |
| Screens.NotificationScreen.SetNotification | mythtv/libs/libmythui/mythuinotificationcenter.cpp:94-153 | `m_update` is rebuilt as `UpdateFlags`. A non-Update notification sets `m_content := m_update` and latches fullscreen; an Update leaves both. Non-empty metadata overwrites all four tags. Only a non-empty style replaces the style. Duration is always taken and the timer rearmed by `SetSingleShotTimer`'s rule. |
| Screens.ReceivedTwice | mythtv/libs/libmythui/mythuinotificationcenter.cpp:94-153 | Taking in the same notification twice leaves the screen's content (`Received`) as taking it in once. |
| Screens.StyleOnlyUpdate | mythtv/libs/libmythui/mythuinotificationcenter.cpp:94-153 | An Update carrying no artwork, no playback and no metadata changes nothing in the content but the style, the duration and the timer. |
| Screens.NotificationScreen.TakeParts | mythtv/libs/libmythui/mythuinotificationcenter.cpp:96-141 | The returned flags are `UpdateFlags(n)`, and `m_update` holds exactly them on return. The artwork follows `AdoptedArtwork`. The playback is replaced iff the notification is a playback one. The four tags are replaced by those read from the metadata iff it is non-empty. The style is replaced iff the new one is non-empty. Each of these is otherwise kept. |
| Screens.NotificationScreen.UpdateArtworkImage | mythtv/libs/libmythui/mythuinotificationcenter.cpp:350-353 | Replaces the artwork's image and nothing else. |
| Screens.NotificationScreen.UpdateArtworkPath | mythtv/libs/libmythui/mythuinotificationcenter.cpp:359-362 | Replaces the artwork's path and nothing else. |
| Screens.NotificationScreen.UpdatePlayback | mythtv/libs/libmythui/mythuinotificationcenter.cpp:400-404 | Stores the progress and the progress text. |
| Screens.NotificationScreen.UpdateMetaData | mythtv/libs/libmythui/mythuinotificationcenter.cpp:370-394 | Every tag follows `Merge` with keep-on-null = kMetaData set in `m_update`. With kMetaData clear, the tags become exactly those read from the data. |
| Screens.NotificationScreen.SetSingleShotTimer | mythtv/libs/libmythui/mythuinotificationcenter.cpp:469-483 | With a positive id and `s < 0` the timer is left untouched. Otherwise it is armed with `ArmedInterval(s)`. |
| Screens.NotificationScreen.Target | mythtv/libs/libmythui/mythuinotificationcenter.cpp:410-414 | The target position keeps the theme's x. Its y lies `(height + HGAP) * rank` below the theme's y. |
| Screens.NotificationScreen.AdjustYPosition | mythtv/libs/libmythui/mythuinotificationcenter.cpp:410-419 | The screen ends at its target position. It reports a move iff it was elsewhere. |
| Screens.NotificationScreen.AdjustIndex | mythtv/libs/libmythui/mythuinotificationcenter.cpp:421-432 | The rank is set to `by` or increased by it. The screen is then moved to its target position. |
| Screens.NotificationScreen.Create | mythtv/libs/libmythui/mythuinotificationcenter.cpp:155-206 | Succeeds iff `ResolveTheme` finds a window for the screen's fullscreen flag, image content and style. On success the screen is created, with the window's position (also kept as base position), height and widgets. On failure nothing changes. |
| Screens.FullRefresh | mythtv/libs/libmythui/mythuinotificationcenter.cpp:70-82 | With every `m_update` bit set, as a copied screen has them, the next `Init` refreshes every widget the theme has, each with the screen's content. |
| Screens.RefreshFollowsNotification | mythtv/libs/libmythui/mythuinotificationcenter.cpp:94-141 | After `SetNotification(n)`, the next `Init` refreshes exactly the widgets the theme has and `n` carries content for: artwork for the image, playback for the progress widgets, and for the texts metadata or a non-Update notification. Each is refreshed with the screen's content. An Update carrying only a style refreshes nothing. |
| Screens.NotificationScreen.Init | mythtv/libs/libmythui/mythuinotificationcenter.cpp:211-344 | The screen moves to its target position. It refreshes exactly the widgets due, and shows progress iff the content has kDuration. It ends with `m_update` = kNone, so a second Init refreshes nothing. It is added to the screen stack, pushed iff it was not added before. |
| Center.NotificationCenter.LookUpClient | mythtv/libs/libmythui/mythuinotificationcenter.cpp:638 | Reading `m_clients[id]` returns the id's client, or null. It inserts a null client for a missing id and changes nothing else. |
| Center.NotificationCenter.constructor | mythtv/libs/libmythui/mythuinotificationcenter.cpp:511-521 | A new center has id counter 0 and no registrations, clients, suspended ids, queued notifications, screens or screens due for deletion. Its invariant holds. |
| Center.NotificationCenter.Register | mythtv/libs/libmythui/mythuinotificationcenter.cpp:779-795 | A null client gets -1 and nothing changes. Otherwise the counter grows by one and is returned. The id is greater than every id handed out before and is mapped to a null screen and to the client. |
| Center.NotificationCenter.UnRegister | mythtv/libs/libmythui/mythuinotificationcenter.cpp:797-840 | An unknown id changes nothing. Otherwise the id leaves both maps, whoever the caller is. Its screen is appended to the deletion list iff it is non-null and has duration <= 0 or must close immediately. |
| Center.NotificationCenter.Queue | mythtv/libs/libmythui/mythuinotificationcenter.cpp:622-670 | The notification is refused iff it is an Update for a positive, registered, suspended id sent by the id's owner. Otherwise it is appended unchanged, keeping its id even for a non-owner. A non-Update from the owner of a suspended id removes every occurrence of the id from the suspended list. |
| Center.NotificationCenter.QueueDemoting | mythtv/libs/libmythui/mythuinotificationcenter.cpp:622-670 | Corrected Queue: refuses exactly what Queue refuses and touches the suspended list and the clients the same way. The appended clone carries a positive id iff its sender owns that registered id. Otherwise the clone of a positively numbered notification is anonymous (id -1), and everything else in the notification is unchanged. If every registration was issued by `Register`, a queue holding only issued ids still does so afterwards. |
| Center.ForeignIdRegistered | mythtv/libs/libmythui/mythuinotificationcenter.cpp:636-645 | On a fresh center, client 1 queues a notification with id 7, which it does not own, and the queue is then processed. Id 7 ends up registered although `Register` issued no id. |
| Center.ForeignIdDemoted | mythtv/libs/libmythui/mythuinotificationcenter.cpp:636-645 | The same submission through the corrected Queue is queued with id -1, so the queue holds only issued ids. |
| Center.FullscreenSecond | mythtv/libs/libmythui/mythuinotificationcenter.cpp:687-744 | Two rounds of the loop on a fresh center show a plain screen at position 0 and then a fullscreen screen for id 1 at position 1, which keeps rank 0. |
| Center.StaleRank | mythtv/libs/libmythui/mythuinotificationcenter.cpp:729-744 | A third round sends id 1 a New non-fullscreen notification. The screen stays at position 1 with rank 0, so the ranks are no longer gap-free: `Stacked()` fails. |
| Center.NotificationCenter.ProcessQueue | mythtv/libs/libmythui/mythuinotificationcenter.cpp:672-748 | Off the GUI thread nothing changes, not even the screens' fields, and nothing is shown. On it, every screen due for deletion is popped first. The deletion list ends empty, those screens leave the list, and the suspended list grows by `Reinstated` of them. The screens kept rise one rank per popped screen above them. `start` is the registrations at that point: an id is bound there iff it was bound before or was reinstated. Then the queue, in order, is shown and emptied. `parts[k]` is the at most one screen appended for the k-th queued notification. The list ends as the kept screens followed by the parts joined in queue order. A notification without a positive id gets a fresh screen carrying its id iff a theme fits it. For a positive id bound to no screen in `start`, a notification gets a new screen iff a theme fits and none was shown for the id earlier in the queue, and the id ends bound iff some screen was shown for it. A screen appended for a positive id is the one registered under it at the end. Every positive id in the queue ends registered, and its screen, once created, is listed, initialised and added (`Displayed`). A screen appended for a notification without a positive id is new, carries its id, holds `Made(n)` of that notification and is added to the screen stack. Every screen listed or bound afterwards was listed or bound before, or is new. Only the screens bound under queued ids change beyond their rank and position. The center's invariant holds, including no duplicate screens. |
| Center.NotificationCenter.DrainQueue | mythtv/libs/libmythui/mythuinotificationcenter.cpp:672-748 | `ProcessQueue` on the GUI thread, with the same promises as its on-thread branch. |
| Center.NotificationCenter.ShowQueued | mythtv/libs/libmythui/mythuinotificationcenter.cpp:687-746 | The loop over the queue as it was on entry; the queue ends empty. `parts[k]` is the at most one screen appended for the k-th notification, and the list ends as the old list followed by the parts joined. A notification without a positive id gets a fresh screen carrying its id iff a theme fits it. For a positive id bound to no screen on entry, a notification gets a new screen iff a theme fits and none was shown for the id earlier in the queue, and the id ends bound iff some screen was shown for it. A screen appended for a positive id is the one registered under it at the end. Every positive id in the queue ends registered, and its screen, once created, is listed, initialised and added (`Displayed`). A screen appended for a notification without a positive id is new, carries its id, holds `Made(n)` of that notification and is added to the screen stack. Screens listed before keep their ranks and offsets. Every screen listed or bound afterwards was listed or bound before, or is new. |
| Center.NotificationCenter.ShowNext | mythtv/libs/libmythui/mythuinotificationcenter.cpp:687-746 | One round of the loop for the k-th notification. It extends `parts` by the part for that notification and appends that part to the list, so the list stays the old list followed by the parts joined. Everything `ShowQueued` promises about the notifications so far (`ShownFor`) stays true with the new one included. Listed screens keep their ranks. Every bound screen, and the screen appended, was bound before or is new. The screens made so far for notifications without a positive id (`made`) stay bound to no id, keep `Made` of their notification as content and stay added; the screen appended for such a notification joins them. |
| Center.NotificationCenter.ShowStep | mythtv/libs/libmythui/mythuinotificationcenter.cpp:687-746 | The accounting of one round: the same list, `ShownFor`, rank and provenance promises as `ShowNext`. For a notification without a positive id, the screen appended is new, bound to no id, carries the id, holds `Made(n)` and is added, and `made` grows by exactly that screen. |
| Center.NotificationCenter.ShowRound | mythtv/libs/libmythui/mythuinotificationcenter.cpp:687-746 | `ProcessNotification` in the terms the loop accounts in. At most one screen is appended, and listed screens keep their ranks. Without a positive id the registrations are unchanged, a screen is appended iff a theme fits, and it is new, bound to no id, carries the id, holds `Made(n)` and is added. A positive id ends registered and `Displayed`: it keeps a bound screen, and a bound screen already listed appends nothing; an unbound id is bound iff a screen is appended, which happens iff a theme fits, and then to that screen. Only that id's registration changes. The ids in `displayed`, registered and `Displayed` on entry, stay so. Every bound screen, and the screen appended, was bound before or is new. |
| Center.RoundStep | mythtv/libs/libmythui/mythuinotificationcenter.cpp:687-746 | When the registrations change only under the notification's positive id, as `ProcessNotification` changes them, what the loop has shown so far (`Chosen`, `KeptUnder`, `FirstShown`, `Settled`) stays true with the new part added. |
| Center.FirstStep | mythtv/libs/libmythui/mythuinotificationcenter.cpp:687-746 | Suppose the new part, for an id bound to no screen, is non-empty iff a theme fits, and a notification for an id bound since `start` adds none. Then `FirstShown` and `Settled` carry over to one more notification. |
| Center.ShownListed | mythtv/libs/libmythui/mythuinotificationcenter.cpp:687-746 | If a screen was shown for a positive id earlier in the queue, that id is bound to a screen that is among those shown. |
| Center.NotificationCenter.ProcessNotification | mythtv/libs/libmythui/mythuinotificationcenter.cpp:687-746 | One queued notification appends at most one screen and leaves the earlier list, and every listed screen's rank, intact. A notification that needs a new screen (non-positive id, or no screen registered under it) is appended iff a theme fits it. The screen appended is fresh, carries the notification's id and holds `Made(n)`. A positive id whose registered screen is already listed appends nothing, and that screen's content becomes `Received(old content, n)`. Without a positive id the registrations are unchanged. A positive id ends registered to its earlier screen if it had one, else to the screen appended (null when none was); its screen, once created, is listed, initialised and added (`Displayed`). Only the notification's id changes registration. The screen appended was bound before or is new. The screen appended is added to the screen stack and has `m_update` = kNone. Created screens stay created, and ids that were `Displayed` stay so. |
| Center.NotificationCenter.LookUpScreen | mythtv/libs/libmythui/mythuinotificationcenter.cpp:695 | Reading `m_registrations[id]` returns the id's screen, or null. It inserts a null screen for a missing id. |
| Center.NotificationCenter.ScreenFor | mythtv/libs/libmythui/mythuinotificationcenter.cpp:689-727 | The screen comes from `Obtain`. If it is not created yet, it loads its theme. A failure yields null and leaves the registration as it is. With no screen registered before, the result is null iff no theme fits. A new screen has rank 0, holds `Made(n)`, and is fullscreen iff a non-Update notification asks for it. A registered screen receives the notification: its content becomes `Received(old content, n)`, `m_update` = its flags, fullscreen is latched unless it is an Update, and the rank is kept. It is the result unless its theme fails to load. The screen returned is created. `created` is true iff it was created just now, and then it is not on the list. The notification's positive id, and every id that was `Displayed`, ends `Displayed` or bound to the returned screen. |
| Center.NotificationCenter.Obtain | mythtv/libs/libmythui/mythuinotificationcenter.cpp:689-716 | Under a positive id with no screen, a null registration is inserted first. A new screen made from the notification is then registered there. It is null iff no theme fits. Otherwise it is created, has rank 0, is fullscreen iff a non-Update notification asks for it, and holds `Made(n)`. A registered screen receives the notification instead. Its content becomes `Received(old content, n)` and `m_update` = its flags. `m_created` and the rank are unchanged, and fullscreen is latched unless it is an Update. Non-positive ids leave the registrations unchanged. |
| Center.NotificationCenter.ThemeFor | mythtv/libs/libmythui/mythuinotificationcenter.cpp:164-186 | The theme a new screen made from the notification loads is a window of the theme. An Update notification, which latches neither fullscreen nor content, always gets the plain theme (or its styled variant). |
| Center.NotificationCenter.CreateScreen | mythtv/libs/libmythui/mythuinotificationcenter.cpp:754-777 | The result is null iff no theme fits the notification. Otherwise it is a new, created, not yet added screen with the notification's id, rank 0 and `m_update` = its flags. It is fullscreen iff the notification is not an Update and asks for fullscreen. Its content (`Held`) is `Made(n)`: a blank screen with the notification's id and duration that has taken the notification in. |
| Center.NotificationCenter.Show | mythtv/libs/libmythui/mythuinotificationcenter.cpp:729-744 | A screen created just now or not yet listed is appended, and when not fullscreen its rank is its position. A fullscreen screen, or one already listed, keeps its rank. The screen is then initialised and added, and its content (`Held`) is unchanged. A gap-free stack stays gap-free, and every id bound to the screen ends `Displayed`. |
| Center.NotificationCenter.InsertScreen | mythtv/libs/libmythui/mythuinotificationcenter.cpp:870-893 | Appends the screen and returns the old length, its position. |
| Center.NotificationCenter.RemoveScreen | mythtv/libs/libmythui/mythuinotificationcenter.cpp:899-916 | Erases the first occurrence and returns its position (`indexOf`). A screen not on the list leaves it as it is and yields its length. |
| Center.NotificationCenter.AdjustScreenPosition | mythtv/libs/libmythui/mythuinotificationcenter.cpp:921-932 | Every screen at position >= `from` moves exactly one rank down or up, to its target position. Earlier screens keep rank and position. A stack off by that one rank from `from` on becomes gap-free. |
| Center.NotificationCenter.ScreenDeleted | mythtv/libs/libmythui/mythuinotificationcenter.cpp:559-615 | The screen leaves the deletion list and the screen list. Every later screen moves up a rank and earlier ones keep theirs, so each screen left keeps its rank minus its position, and a gap-free stack stays gap-free. If its id is registered and it was not due for deletion, a fresh uncreated copy holding its content is registered under the id and the id is appended to the suspended list. Otherwise the suspended list is unchanged. No other id gains or loses its registration. |
| Center.NotificationCenter.Release | mythtv/libs/libmythui/mythuinotificationcenter.cpp:564-572 | The bookkeeping part of `ScreenDeleted` (:564-572, :594-614). The screen leaves the deletion list. If its id is registered and it was not due for deletion, a fresh uncreated copy holding its content is registered under the id and the id is appended to the suspended list. Otherwise nothing else changes. No other id gains or loses its registration. |
| Center.NotificationCenter.Forget | mythtv/libs/libmythui/mythuinotificationcenter.cpp:564-572 | Reports whether the screen was due for deletion and removes every occurrence of it from that list. |
| Center.NotificationCenter.Unlist | mythtv/libs/libmythui/mythuinotificationcenter.cpp:574-584 | Removes the screen from the list. Each later screen's rank drops by one, earlier ranks stay, and the removed screen keeps its own rank. So each screen left keeps its rank minus its position, and a gap-free stack stays gap-free. |
| Center.NotificationCenter.UnlistAt | mythtv/libs/libmythui/mythuinotificationcenter.cpp:574-584 | Erases position n. Later screens drop one rank, the others keep theirs, and each screen left keeps its rank minus its position. |
| Center.NotificationCenter.DropAndShift | mythtv/libs/libmythui/mythuinotificationcenter.cpp:574-584 | Erases position n and moves every later screen up one rank. Earlier screens and the erased one keep their ranks, and a gap-free stack stays gap-free. |
| Center.NotificationCenter.DropAt | mythtv/libs/libmythui/mythuinotificationcenter.cpp:574-577 | Erasing position n of a gap-free stack leaves every later screen one rank below its new position. |
| Center.NotificationCenter.Reinstate | mythtv/libs/libmythui/mythuinotificationcenter.cpp:594-614 | For a registered id whose screen was not due for deletion, a fresh uncreated copy with `m_update` = kAll replaces the registration and the id is appended to the suspended list. Otherwise nothing changes. No other id gains or loses its registration. |
| Center.NotificationCenter.DeleteAllScreens | mythtv/libs/libmythui/mythuinotificationcenter.cpp:853-864 | Empties the deletion list. Every screen that was on it leaves the screen list, and a gap-free stack stays gap-free. Each screen left rises one rank per popped screen listed above it, so its rank minus its position is kept. The suspended list grows by `Reinstated` of the old deletion list: popped last first, the id of each popped screen that is registered and not on the deletion list again. Each of those ids holds a fresh uncreated copy with its id and `m_update` = kAll, holding the content (`HoldsContentOf`: id, artwork, tags, duration, playback, content, fullscreen, rank, style) of a screen that was on the deletion list. Every other registration is unchanged, and no id gains or loses its registration. So an id ends bound to no screen iff it was so before and is not reinstated, and every bound screen was bound before or is new. |
| Center.NotificationCenter.PopAll | mythtv/libs/libmythui/mythuinotificationcenter.cpp:853-864 | The loop of `DeleteAllScreens`. It ends with the deletion list empty, the popped screens exactly those that were on it and off the screen list, the suspended list grown by all of `Reinstated`, and the offsets of the screens left kept. For each id suspended, `src` gives the screen last popped under it, and the id's copy holds that screen's content. |
| Center.NotificationCenter.PopRound | mythtv/libs/libmythui/mythuinotificationcenter.cpp:856-862 | One round of that loop shortens the deletion list. It keeps the loop's account (`Popping`) of the screens popped and ids suspended so far, and the offsets of the screens left. Every id suspended so far holds a new copy, not on the list the loop started from, of the screen `src` gives for it, the one last popped under that id. |
| Center.NotificationCenter.PopStep | mythtv/libs/libmythui/mythuinotificationcenter.cpp:856-862 | The accounting of one round: keeps `Popping` with the ids suspended and the screens popped grown by exactly this round's. Only the id suspended, if any, is bound anew, to a fresh copy holding the popped screen's content. |
| Center.NotificationCenter.PopLast | mythtv/libs/libmythui/mythuinotificationcenter.cpp:856-862 | Takes the last screen due for deletion off that list, where its other occurrences stay, and pops it. The screen leaves the screen list, and a gap-free stack stays gap-free. Every later screen drops one rank, so each screen left keeps its rank minus its position. Its id is suspended and given an uncreated copy iff the id is registered and the screen is not on the deletion list again (:596-605). This is the first entry of `Reinstated` of the old deletion list, and the rest of it is left for the remaining rounds. Only that id is bound anew, to a fresh copy holding the popped screen's content (`HoldsContentOf`, :599-602). |
| Center.NotificationCenter.ReleaseLast | mythtv/libs/libmythui/mythuinotificationcenter.cpp:856-862 | The bookkeeping half of one round of `DeleteAllScreens`. The last screen due for deletion leaves that list, its other occurrences stay, and it is released. The suspended list grows by `step`, the first entry of `Reinstated` of the old deletion list, and the rest of that entry list is left for the remaining rounds. Only the id suspended, if any, is bound anew, to a fresh copy holding the released screen's content. |
| Center.NotificationCenter.TakeLast | mythtv/libs/libmythui/mythuinotificationcenter.cpp:858-861 | Returns the last screen due for deletion and drops it from the end of that list. `step` is its id iff the id is registered and the screen is not on the shortened list, which is the id releasing it will suspend. |
| Center.NotificationCenter.ProcessTimer | mythtv/libs/libmythui/mythuinotificationcenter.cpp:439-444 | A screen whose timer ran out leaves the screen list and the deletion list, and a gap-free stack stays gap-free. Every other screen drops one rank iff it came after the screen, so each screen left keeps its rank minus its position. If its id is registered and it was not due for deletion, the id holds a fresh uncreated copy of its content and is appended to the suspended list. Otherwise the registrations and the suspended list are unchanged. No other id gains or loses its registration. |
| Center.NotificationCenter.ScreenCreated | mythtv/libs/libmythui/mythuinotificationcenter.cpp:944-952 | A screen of another kind counts as created. A notification screen is created iff its theme has been loaded. |
| Lists.WithoutAt | mythtv/libs/libmythui/mythuinotificationcenter.cpp:574-577 | On a list without duplicates, `removeAll` of the element at `indexOf` position n erases exactly position n. |

## Left out

- Locking (`m_lock`, the singleton lock), the singleton check that makes
  `Register`, `UnRegister` and `Queue` return early once the center is gone,
  and the GUI-thread identity check. The last one is the `onGuiThread`
  parameter of `ProcessQueue`.
- Center.NotificationCenter.ScreenDeleted: runs as one atomic step here. In
  the code it takes no lock, and on the timer path (:443) and the
  `CheckDeletes` path (:959, before the lock at :961) it can interleave with
  a locked `Queue`, `Register` or `UnRegister` on another thread. Those
  interleavings are not modelled.
- `QCoreApplication::postEvent` wake-ups and all logging.
- Theme XML loading and the child-widget lookup. They are replaced by a table
  from window name to window.
- Widget rendering in `Init` (`SetText`, `Reset`, image loading). The model
  only records which widgets are refreshed and with what.
- The progress bar's `100 * m_progress`, which is float arithmetic.
- The `m_expiry` wall-clock time and the firing of the QTimer. Only the armed
  interval is modelled.
- `GetNotificationScreens`, `UpdateScreen`, `ScreenExpiryTime` and the
  `m_converted` cache of screen copies.
- Memory ownership and `delete`, including deleting the processed
  notifications.
- Center.NotificationCenter.ScreenFor: a screen whose `Create` fails is
  deleted in place (:723). The model abandons it and leaves its registration
  pointing to it. Such a screen is always an uncreated copy that
  `ScreenDeleted` connected to its slot (:602). So in the code its destructor
  emits `ScreenDeleted` (:91), which registers a fresh copy of it under its id
  and appends the id to the suspended list again (:600-605). The model drops
  this second reinstatement.
- The id-only constructor, which `CreateScreen` calls only with a null
  notification, which `ProcessQueue` never passes.
- The screen stack's internals. `PopScreen` is modelled as the
  `ScreenDeleted` call it causes; `AddScreen` is modelled as the `pushed`
  result of `Init`.
- `mythtv/libs/libmythui/mythdialogbox.cpp`, a UI dialog unrelated to the
  notification bookkeeping.
- The header declaring the mask values is not part of this model. The values
  used are kNone = 0, kImage = 1, kDuration = 2, kMetaData = 4, kStyle = 8,
  and kAll = all bits.
- Center.NotificationCenter.ProcessQueue: does not promise that the ranks
  stay gap-free (`Stacked()`), because the code does not keep them so; see
  `Center.StaleRank`. Each list operation it uses does keep them.
- Center.NotificationCenter.ShowQueued: for a positive id already bound to a
  screen when the loop starts, it does not state whether that screen is
  appended. In the code it is appended iff it is not on the list and its
  theme loads. The contract states only that a screen appended for the id is
  the registered one, and that the id ends registered and `Displayed`. The
  same holds for `ShowNext`, `ShowStep`, `ShowRound` and `ProcessQueue`.
- Center.NotificationCenter.ShowQueued: states the content of the screens
  shown for notifications without a positive id (`Made(n)`), but not the
  content a positive id's screen ends with. That content is a fold of
  `Received` over the queued notifications for the id, starting from the
  screen's content on entry. Only each single round states its step of it
  (`ProcessNotification`: `Made(n)` for a new screen, `Received(old, n)` for
  a registered one); the loop does not carry the fold.
- Center.NotificationCenter.ShowNext: the same content gap as `ShowQueued`,
  for one round.
- Center.NotificationCenter.ShowStep: the same content gap as `ShowQueued`,
  for one round.
- Center.NotificationCenter.DrainQueue: the same content gap as `ShowQueued`.
- Center.NotificationCenter.ProcessQueue: the same content gap as
  `ShowQueued`.
- Screens.ArmedInterval: does not model the 32-bit overflow of `s * 1000` for
  durations beyond about 2.1 million seconds, because integers are unbounded
  here.

## Findings

| source | as written | input that shows it | evidently intended | confidence | as-written member | corrected member |
|---|---|---|---|---|---|---|
| mythtv/libs/libmythui/mythuinotificationcenter.cpp:636-645 | For a sender that does not own a positive id, only the local variable `id` is set to -1. The clone is queued with its original id. | A fresh center, client 1 queues a New notification with id 7, then `ProcessQueue` runs on the GUI thread. `m_registrations[7]` is inserted at :695 and id 7 is registered, although no id was ever issued. | The queued clone is demoted to an anonymous notification (id -1), so only the owner of a registered id can act on it. | medium, not executed | Center.ForeignIdRegistered | Center.NotificationCenter.QueueDemoting |

=== FILE: center.dfy ===
/**
 * MythUINotificationCenter: the registrations of clients that own a
 * notification id, the queue of notifications waiting for the GUI thread,
 * the list of screens on display and the screens waiting to be deleted.
 * Register, UnRegister, Queue and ProcessQueue run whole under the center's
 * lock; ScreenDeleted takes none. Each operation is one atomic method here.
 */
module Center {
  import opened Wrappers
  import opened Lists
  import opened Notifications
  import opened Themes
  import opened Stacking
  import opened Screens

  /** A screen on the screen stack: a notification screen or a screen of another kind. */
  datatype StackedScreen = NotificationRef(screen: NotificationScreen) | OtherScreen

  /** The id of each of the screens `ds`. */
  ghost function Ids(ds: seq<NotificationScreen>): map<NotificationScreen, int>
    reads ds`id
  {
    map s | s in ds :: s.id
  }

  /** `idOf` gives the id of each of the screens `ds`. */
  ghost predicate IdsAgree(ds: seq<NotificationScreen>, idOf: map<NotificationScreen, int>)
    reads ds`id
  {
    forall s :: s in ds ==> s in idOf && idOf[s] == s.id
  }

  /**
   * The ids DeleteAllScreens suspends, in order, when it pops the screens `ds`,
   * whose ids `idOf` gives, while the ids `keys` are registered. The last
   * screen is popped first and every occurrence of it leaves the list; it is
   * reinstated iff its id is registered and no other occurrence of it was
   * left, since one left would make it count as due for deletion.
   */
  ghost function Reinstated(ds: seq<NotificationScreen>, idOf: map<NotificationScreen, int>, keys: set<int>): seq<int>
    decreases |ds|
  {
    if ds == [] then []
    else
      var screen := ds[|ds| - 1];
      var rest := ds[..|ds| - 1];
      (if screen in idOf && idOf[screen] in keys && screen !in rest then [idOf[screen]] else [])
      + Reinstated(Without(rest, {screen}), idOf, keys)
  }

  /**
   * Taking the last screen off `ds` leaves the others on it, each with its
   * id, and splits what is reinstated into the last screen's part and the
   * part of the others.
   */
  lemma TakenLast(ds: seq<NotificationScreen>, idOf: map<NotificationScreen, int>, keys: set<int>)
    requires ds != [] && IdsAgree(ds, idOf)
    ensures var screen, rest := ds[|ds| - 1], ds[..|ds| - 1];
      var left := Without(rest, {screen});
      && (forall s :: s in left <==> s in ds && s != screen)
      && |left| < |ds|
      && IdsAgree(left, idOf)
      && Reinstated(ds, idOf, keys)
         == (if screen.id in keys && screen !in rest then [screen.id] else []) + Reinstated(left, idOf, keys)
  {
    WithoutLast(ds);
  }

  /**
   * `regs` holds what `before` holds except that every id in `done` holds an
   * uncreated copy, due for a full refresh, that `before` did not hold.
   */
  ghost predicate CopiedSince(regs: map<int, NotificationScreen?>, before: map<int, NotificationScreen?>, done: seq<int>)
    reads regs.Values`created, regs.Values`update, regs.Values`id
  {
    && regs.Keys == before.Keys
    && (forall i :: i in before && i !in done ==> regs[i] == before[i])
    && (forall i :: i in done ==>
          i in regs && regs[i] != null && regs[i] !in before.Values
          && !regs[i].created && regs[i].update == AllFlags && regs[i].id == i)
  }

  /**
   * Registering an uncreated copy under `id`, and nothing else, extends
   * CopiedSince by `step`: that id, or nothing when no copy was made.
   */
  lemma CopiedOnward(prev: map<int, NotificationScreen?>, regs: map<int, NotificationScreen?>,
                     before: map<int, NotificationScreen?>, done: seq<int>, id: int, step: seq<int>)
    requires CopiedSince(prev, before, done)
    requires regs.Keys == prev.Keys
    requires forall i :: i != id && i in prev ==> regs[i] == prev[i]
    requires step == [] ==> regs == prev
    requires step != [] ==>
      && step == [id] && id in regs && regs[id] != null && regs[id] !in before.Values
      && !regs[id].created && regs[id].update == AllFlags && regs[id].id == id
    ensures CopiedSince(regs, before, done + step)
  {
    forall i | i in before && i !in done + step
      ensures regs[i] == before[i]
    {
      assert i != id || step == [];
    }
    forall i | i in done + step
      ensures i in regs && regs[i] != null && regs[i] !in before.Values
      ensures !regs[i].created && regs[i].update == AllFlags && regs[i].id == i
    {
      if i !in step {
        assert regs[i] == prev[i];
      }
    }
  }

  /**
   * `parts` holds at most one screen for each notification of `queue` up to
   * its own length; one whose notification carries no id holds a screen iff
   * a theme fits it.
   */
  ghost predicate Chosen(queue: seq<Notification>, themes: Themes, parts: seq<seq<NotificationScreen>>)
  {
    && |parts| <= |queue|
    && (forall k :: 0 <= k < |parts| ==> |parts[k]| <= 1)
    && (forall k :: 0 <= k < |parts| && queue[k].id <= 0 ==> (parts[k] != [] <==> NotificationCenter.ThemeFor(queue[k], themes).Some?))
  }

  /** Choosing for one more notification keeps Chosen. */
  lemma ChosenStep(queue: seq<Notification>, themes: Themes, parts: seq<seq<NotificationScreen>>, more: seq<NotificationScreen>)
    requires |parts| < |queue| && Chosen(queue, themes, parts) && |more| <= 1
    requires queue[|parts|].id <= 0 ==> (more != [] <==> NotificationCenter.ThemeFor(queue[|parts|], themes).Some?)
    ensures Chosen(queue, themes, parts + [more])
  {
    var next := parts + [more];
    forall k | 0 <= k < |next| && queue[k].id <= 0
      ensures next[k] != [] <==> NotificationCenter.ThemeFor(queue[k], themes).Some?
    {
      if k < |parts| {
        assert next[k] == parts[k];
      }
    }
  }

  /**
   * Every screen in `parts` for a notification with a positive id is the one
   * `regs` holds under that id.
   */
  ghost predicate KeptUnder(queue: seq<Notification>, parts: seq<seq<NotificationScreen>>, regs: map<int, NotificationScreen?>)
  {
    forall k :: 0 <= k < |parts| && k < |queue| && queue[k].id > 0 && parts[k] != [] ==>
      queue[k].id in regs && regs[queue[k].id] == parts[k][0]
  }

  /**
   * Showing one more notification keeps KeptUnder when the registrations
   * change under its id only, and there only from no screen to the one shown.
   */
  lemma KeptStep(queue: seq<Notification>, parts: seq<seq<NotificationScreen>>, more: seq<NotificationScreen>,
                 before: map<int, NotificationScreen?>, after: map<int, NotificationScreen?>)
    requires |parts| < |queue| && KeptUnder(queue, parts, before)
    requires forall i :: i != queue[|parts|].id && i in before ==> i in after && after[i] == before[i]
    requires queue[|parts|].id > 0 ==> queue[|parts|].id in after
    requires queue[|parts|].id > 0 && queue[|parts|].id in before && before[queue[|parts|].id] != null ==>
      after[queue[|parts|].id] == before[queue[|parts|].id]
    requires queue[|parts|].id > 0 && more != [] ==> after[queue[|parts|].id] == more[0]
    ensures KeptUnder(queue, parts + [more], after)
  {
    var next := parts + [more];
    forall k | 0 <= k < |next| && queue[k].id > 0 && next[k] != []
      ensures queue[k].id in after && after[queue[k].id] == next[k][0]
    {
      if k < |parts| {
        assert next[k] == parts[k];
      }
    }
  }

  /**
   * Every notification of `queue` up to the length of `parts` is accounted
   * for: a positive id is in `displayed`, and a screen shown for a
   * notification without an id is in `made` with that notification.
   */
  ghost predicate Tracked(queue: seq<Notification>, parts: seq<seq<NotificationScreen>>,
                          displayed: set<int>, made: map<NotificationScreen, Notification>)
  {
    && (forall p :: 0 <= p < |parts| && p < |queue| && queue[p].id > 0 ==> queue[p].id in displayed)
    && (forall p :: 0 <= p < |parts| && p < |queue| && queue[p].id <= 0 && parts[p] != [] ==>
          parts[p][0] in made && made[parts[p][0]] == queue[p])
  }

  /** Accounting for one more notification keeps Tracked. */
  lemma TrackedStep(queue: seq<Notification>, parts: seq<seq<NotificationScreen>>, more: seq<NotificationScreen>,
                    displayed: set<int>, made: map<NotificationScreen, Notification>)
    requires |parts| < |queue| && Tracked(queue, parts, displayed, made)
    requires queue[|parts|].id <= 0 && more != [] ==> more[0] !in made
    ensures var id := queue[|parts|].id;
      Tracked(queue, parts + [more],
              if id > 0 then displayed + {id} else displayed,
              if id <= 0 && more != [] then made[more[0] := queue[|parts|]] else made)
  {
    var next := parts + [more];
    forall p | 0 <= p < |next| && queue[p].id <= 0 && next[p] != [] && p < |parts|
      ensures next[p] == parts[p] && parts[p][0] in made
    {
    }
  }

  /** No screen is bound to `i` in `regs`. */
  ghost predicate Unbound(regs: map<int, NotificationScreen?>, i: int)
  {
    i !in regs || regs[i] == null
  }

  /** A screen was shown for a notification of `queue` with id `i` before the `k`-th. */
  ghost predicate ShownBefore(queue: seq<Notification>, parts: seq<seq<NotificationScreen>>, i: int, k: int)
  {
    exists j :: 0 <= j < k && j < |parts| && j < |queue| && queue[j].id == i && parts[j] != []
  }

  /**
   * A notification with a positive id that `start` binds no screen to gets
   * a new screen iff a theme fits it and none was shown for the id earlier:
   * the first screen created is registered, and later notifications with the
   * id only update it.
   */
  ghost predicate FirstShown(queue: seq<Notification>, themes: Themes, parts: seq<seq<NotificationScreen>>,
                             start: map<int, NotificationScreen?>)
  {
    forall k :: 0 <= k < |parts| && k < |queue| && queue[k].id > 0 && Unbound(start, queue[k].id) ==>
      (parts[k] != [] <==> NotificationCenter.ThemeFor(queue[k], themes).Some? && !ShownBefore(queue, parts, queue[k].id, k))
  }

  /**
   * A positive id that `start` binds no screen to is bound in `regs` iff a
   * screen was shown for it.
   */
  ghost predicate Settled(queue: seq<Notification>, parts: seq<seq<NotificationScreen>>,
                          start: map<int, NotificationScreen?>, regs: map<int, NotificationScreen?>)
  {
    forall i :: i > 0 && Unbound(start, i) ==> (Unbound(regs, i) <==> !ShownBefore(queue, parts, i, |parts|))
  }

  /** One more part leaves ShownBefore as it was for the notifications before it. */
  lemma ShownPrefix(queue: seq<Notification>, parts: seq<seq<NotificationScreen>>, more: seq<NotificationScreen>, i: int, k: int)
    requires 0 <= k <= |parts| < |queue|
    ensures ShownBefore(queue, parts + [more], i, k) == ShownBefore(queue, parts, i, k)
    ensures ShownBefore(queue, parts + [more], i, |parts| + 1) ==
      (ShownBefore(queue, parts, i, |parts|) || (queue[|parts|].id == i && more != []))
  {
    var next := parts + [more];
    if ShownBefore(queue, next, i, k) {
      var j :| 0 <= j < k && j < |next| && j < |queue| && queue[j].id == i && next[j] != [];
      assert parts[j] == next[j];
    }
    if ShownBefore(queue, parts, i, k) {
      var j :| 0 <= j < k && j < |parts| && j < |queue| && queue[j].id == i && parts[j] != [];
      assert parts[j] == next[j];
    }
    if ShownBefore(queue, next, i, |parts| + 1) && !(queue[|parts|].id == i && more != []) {
      var j :| 0 <= j < |parts| + 1 && j < |next| && j < |queue| && queue[j].id == i && next[j] != [];
      assert j < |parts| && parts[j] == next[j];
    }
    if ShownBefore(queue, parts, i, |parts|) {
      var j :| 0 <= j < |parts| && j < |queue| && queue[j].id == i && parts[j] != [];
      assert parts[j] == next[j];
    }
    if queue[|parts|].id == i && more != [] {
      assert next[|parts|] == more;
    }
  }

  /**
   * Showing one more notification keeps FirstShown and Settled when its id,
   * if positive, is the only one whose registration changes, a screen bound
   * to it stays, an unbound one gets a screen iff a theme fits, and a
   * notification for an id bound since `start` shows nothing new.
   */
  lemma {:induction false} FirstStep(queue: seq<Notification>, themes: Themes, parts: seq<seq<NotificationScreen>>,
                                     more: seq<NotificationScreen>, start: map<int, NotificationScreen?>,
                                     before: map<int, NotificationScreen?>, after: map<int, NotificationScreen?>)
    requires |parts| < |queue| && FirstShown(queue, themes, parts, start) && Settled(queue, parts, start, before)
    requires queue[|parts|].id <= 0 ==> after == before
    requires queue[|parts|].id > 0 ==> queue[|parts|].id in after && after == before[queue[|parts|].id := after[queue[|parts|].id]]
    requires queue[|parts|].id > 0 && !Unbound(before, queue[|parts|].id) ==> after[queue[|parts|].id] == before[queue[|parts|].id]
    requires queue[|parts|].id > 0 && Unbound(before, queue[|parts|].id) ==>
      && (more != [] <==> NotificationCenter.ThemeFor(queue[|parts|], themes).Some?)
      && (Unbound(after, queue[|parts|].id) <==> more == [])
    requires queue[|parts|].id > 0 && !Unbound(before, queue[|parts|].id) && Unbound(start, queue[|parts|].id) ==> more == []
    ensures FirstShown(queue, themes, parts + [more], start) && Settled(queue, parts + [more], start, after)
  {
    var next := parts + [more];
    var id := queue[|parts|].id;
    forall k | 0 <= k < |next| && k < |queue| && queue[k].id > 0 && Unbound(start, queue[k].id)
      ensures next[k] != [] <==> NotificationCenter.ThemeFor(queue[k], themes).Some? && !ShownBefore(queue, next, queue[k].id, k)
    {
      ShownPrefix(queue, parts, more, queue[k].id, k);
      if k < |parts| {
        assert next[k] == parts[k];
      } else {
        assert next[k] == more;
        if !Unbound(before, id) {
          assert ShownBefore(queue, parts, id, |parts|);
        }
      }
    }
    forall i | i > 0 && Unbound(start, i)
      ensures Unbound(after, i) <==> !ShownBefore(queue, next, i, |next|)
    {
      ShownPrefix(queue, parts, more, i, |parts|);
      if i != id {
        assert Unbound(after, i) == Unbound(before, i);
      }
    }
  }

  /**
   * One round of ProcessQueue's loop keeps Chosen, KeptUnder, FirstShown,
   * Settled and Tracked, when the registrations change from `before` to
   * `after` as ProcessNotification changes them.
   */
  lemma RoundStep(queue: seq<Notification>, themes: Themes, parts: seq<seq<NotificationScreen>>, more: seq<NotificationScreen>,
                  start: map<int, NotificationScreen?>, before: map<int, NotificationScreen?>, after: map<int, NotificationScreen?>,
                  displayed: set<int>, made: map<NotificationScreen, Notification>)
    requires |parts| < |queue| && |more| <= 1
    requires Chosen(queue, themes, parts) && KeptUnder(queue, parts, before) && Tracked(queue, parts, displayed, made)
    requires FirstShown(queue, themes, parts, start) && Settled(queue, parts, start, before)
    requires queue[|parts|].id <= 0 ==>
      && after == before
      && (more != [] <==> NotificationCenter.ThemeFor(queue[|parts|], themes).Some?)
      && (more != [] ==> more[0] !in made)
    requires queue[|parts|].id > 0 ==> queue[|parts|].id in after && after == before[queue[|parts|].id := after[queue[|parts|].id]]
    requires queue[|parts|].id > 0 && !Unbound(before, queue[|parts|].id) ==> after[queue[|parts|].id] == before[queue[|parts|].id]
    requires queue[|parts|].id > 0 && Unbound(before, queue[|parts|].id) ==>
      && (more != [] <==> NotificationCenter.ThemeFor(queue[|parts|], themes).Some?)
      && (Unbound(after, queue[|parts|].id) <==> more == [])
    requires queue[|parts|].id > 0 && more != [] ==> after[queue[|parts|].id] == more[0]
    requires queue[|parts|].id > 0 && !Unbound(before, queue[|parts|].id) && Unbound(start, queue[|parts|].id) ==> more == []
    ensures var id := queue[|parts|].id;
      && Chosen(queue, themes, parts + [more]) && KeptUnder(queue, parts + [more], after)
      && FirstShown(queue, themes, parts + [more], start) && Settled(queue, parts + [more], start, after)
      && Tracked(queue, parts + [more],
                 if id > 0 then displayed + {id} else displayed,
                 if id <= 0 && more != [] then made[more[0] := queue[|parts|]] else made)
  {
    ChosenStep(queue, themes, parts, more);
    KeptStep(queue, parts, more, before, after);
    TrackedStep(queue, parts, more, displayed, made);
    FirstStep(queue, themes, parts, more, start, before, after);
  }

  /**
   * An id shown for, under Settled and KeptUnder, is bound to a screen among
   * those shown.
   */
  lemma ShownListed(queue: seq<Notification>, parts: seq<seq<NotificationScreen>>, regs: map<int, NotificationScreen?>, i: int)
    requires KeptUnder(queue, parts, regs) && i > 0 && ShownBefore(queue, parts, i, |parts|)
    ensures i in regs && regs[i] != null && regs[i] in Flatten(parts)
  {
    var j :| 0 <= j < |parts| && j < |queue| && queue[j].id == i && parts[j] != [];
    FlattenHas(parts, j);
  }

  class NotificationCenter {
    /** The last id handed out by Register. */
    var currentId: int
    /** Registered ids, each with its screen, or null while it has none. */
    var registrations: map<int, NotificationScreen?>
    /** The client that registered each id. */
    var clients: map<int, Handle>
    /** Ids whose screen was closed while still registered: updates for them are refused. */
    var suspended: seq<int>
    /** Notifications queued for the GUI thread. */
    var notifications: seq<Notification>
    /** The screens on display, top first. */
    var screens: seq<NotificationScreen>
    /** Screens waiting to be deleted. */
    var deletedScreens: seq<NotificationScreen>
    /** Every id Register has returned. */
    ghost var issued: set<int>

    /**
     * The center's invariant: the ids handed out lie between 1 and the
     * counter, no screen is listed twice, and every listed screen has loaded
     * its theme.
     */
    ghost predicate Valid()
      reads this`currentId, this`issued, this`screens, screens`created
    {
      && 0 <= currentId
      && (forall i :: i in issued ==> 0 < i <= currentId)
      && NoDuplicates(screens)
      && (forall s :: s in screens ==> s.created)
    }

    /**
     * The listed screens are stacked without gaps: every screen that is not
     * fullscreen has the rank of its position in the list.
     */
    ghost predicate Stacked()
      reads this`screens, screens`fullscreen, screens`index
    {
      forall k :: 0 <= k < |screens| && !screens[k].fullscreen ==> screens[k].index == k
    }

    /**
     * The listed screens are stacked except that every non-fullscreen screen
     * from position `from` on is `offset` ranks below its position.
     */
    ghost predicate StackedBut(from: int, offset: int)
      reads this`screens, screens`fullscreen, screens`index
    {
      forall k :: 0 <= k < |screens| && !screens[k].fullscreen ==>
        screens[k].index == k + (if from <= k then offset else 0)
    }

    /** How far a listed screen's rank lies from its position in the list. */
    ghost function Offset(x: NotificationScreen): int
      reads this`screens, x`index
    {
      x.index - IndexOf(screens, x)
    }

    /** The screens the registrations are bound to. */
    ghost function Bound(): set<NotificationScreen>
      reads this`registrations
    {
      set s: NotificationScreen | s in registrations.Values
    }

    constructor ()
      ensures Valid()
      ensures currentId == 0 && issued == {}
      ensures registrations == map[] && clients == map[] && suspended == []
      ensures notifications == [] && screens == [] && deletedScreens == []
    {
      currentId := 0;
      registrations, clients, suspended := map[], map[], [];
      notifications, screens, deletedScreens := [], [], [];
      issued := {};
    }

    /** The client owning `id`, as `m_clients[id]` reads it: null for an id it does not hold. */
    function ClientOf(id: int): Handle
      reads this`clients
    {
      if id in clients then clients[id] else NoClient
    }

    /**
     * `m_clients[id]`: reads the client of `id`, inserting a null client first
     * when the map does not hold `id`, as QMap::operator[] does.
     */
    method LookUpClient(id: int) returns (c: Handle)
      modifies this`clients
      ensures c == old(ClientOf(id))
      ensures clients == if id in old(clients) then old(clients) else old(clients)[id := NoClient]
    {
      if id !in clients {
        clients := clients[id := NoClient];
      }
      c := clients[id];
    }

    /**
     * Register: a null client is refused with -1; any other gets a new id,
     * greater than every id handed out before, bound to no screen yet.
     */
    method Register(from: Handle) returns (id: int)
      requires Valid()
      modifies this`currentId, this`registrations, this`clients, this`issued
      ensures Valid()
      ensures from == NoClient ==>
        id == -1 && currentId == old(currentId) && issued == old(issued)
        && registrations == old(registrations) && clients == old(clients)
      ensures from != NoClient ==>
        && currentId == old(currentId) + 1 && id == currentId
        && (forall i :: i in old(issued) ==> i < id)
        && issued == old(issued) + {id}
        && registrations == old(registrations)[id := null]
        && clients == old(clients)[id := from]
    {
      if from == NoClient {
        return -1;
      }
      currentId := currentId + 1;
      registrations := registrations[currentId := null];
      clients := clients[currentId := from];
      issued := issued + {currentId};
      return currentId;
    }

    /**
     * UnRegister: an unknown id changes nothing. Otherwise the id is dropped
     * from both maps, whoever the caller is, and its screen is marked for
     * deletion when it has one that shows no timed notification or the caller
     * asks for it to close at once.
     */
    method UnRegister(from: Handle, id: int, closeImmediately: bool)
      modifies this`registrations, this`clients, this`deletedScreens
      ensures id !in old(registrations) ==>
        registrations == old(registrations) && clients == old(clients)
        && deletedScreens == old(deletedScreens)
      ensures id in old(registrations) ==>
        var s := old(registrations)[id];
        && registrations == old(registrations) - {id}
        && clients == old(clients) - {id}
        && deletedScreens == old(deletedScreens)
             + (if s != null && (old(s.duration) <= 0 || closeImmediately) then [s] else [])
    {
      if id !in registrations {
        return;
      }
      // a caller that does not own the id is only logged: the id is dropped anyway
      var _ := LookUpClient(id);
      var screen := registrations[id];
      if screen != null {
        // a screen that has no timer running, or is asked to close at once, goes with the next queue run
        if screen.duration <= 0 || closeImmediately {
          deletedScreens := deletedScreens + [screen];
        }
      }
      registrations := registrations - {id};
      clients := clients - {id};
    }

    /**
     * Whether Queue refuses `n`: an update for a registered id, sent by its
     * owner, whose screen is suspended.
     */
    predicate Refuses(n: Notification)
      reads this`registrations, this`clients, this`suspended
    {
      n.id > 0 && n.id in registrations && ClientOf(n.id) == n.parent
      && n.id in suspended && n.ntype == Update
    }

    /**
     * Queue: appends the notification for the GUI thread, unless it is an
     * update for a suspended id of its owner. Any other notification from the
     * owner of a suspended id lifts the suspension. A notification from a
     * client that does not own its id is still queued under that id.
     */
    method Queue(n: Notification) returns (accepted: bool)
      modifies this`notifications, this`suspended, this`clients
      ensures accepted <==> !old(Refuses(n))
      ensures notifications == if accepted then old(notifications) + [n] else old(notifications)
      ensures suspended ==
        if n.id > 0 && n.id in old(registrations) && old(ClientOf(n.id)) == n.parent
           && n.id in old(suspended) && n.ntype != Update
        then Without(old(suspended), {n.id})
        else old(suspended)
      ensures clients ==
        if n.id > 0 && n.id in old(registrations) && n.id !in old(clients)
        then old(clients)[n.id := NoClient]
        else old(clients)
    {
      var id := n.id;
      if id > 0 {
        // an id must be registered, and registered by this caller, to be queued
        var owned := false;
        if id in registrations {
          var owner := LookUpClient(id);
          owned := owner == n.parent;
        }
        if !owned {
          // only this local copy is demoted: the queued notification keeps its id
          id := -1;
        } else if id in suspended {
          // a suspended screen refuses all updates
          if n.ntype == Update {
            return false;
          }
          suspended := Without(suspended, {id});
        }
      }
      notifications := notifications + [n];
      return true;
    }

    /** Every queued notification that carries a registration id carries one `Register` issued. */
    ghost predicate IssuedQueue()
      reads this`notifications, this`issued
    {
      forall k :: 0 <= k < |notifications| && notifications[k].id > 0 ==> notifications[k].id in issued
    }

    /**
     * Queue as its sanity check evidently intends it: a notification from a
     * client that does not own its id is queued as an anonymous one (id -1),
     * so a queued registration id always belongs to its sender.
     */
    method QueueDemoting(n: Notification) returns (accepted: bool)
      modifies this`notifications, this`suspended, this`clients
      ensures accepted <==> !old(Refuses(n))
      ensures accepted ==> |notifications| == |old(notifications)| + 1
      ensures accepted ==> notifications[..|old(notifications)|] == old(notifications)
      ensures !accepted ==> notifications == old(notifications)
      ensures accepted ==> var m := notifications[|old(notifications)|];
        && m == n.(id := m.id)
        && (m.id > 0 <==> n.id > 0 && n.id in old(registrations) && old(ClientOf(n.id)) == n.parent)
        && (m.id <= 0 && n.id > 0 ==> m.id == -1)
        && (n.id <= 0 ==> m.id == n.id)
      ensures (forall i :: i in registrations ==> i in issued) && old(IssuedQueue()) ==> IssuedQueue()
      ensures suspended ==
        if n.id > 0 && n.id in old(registrations) && old(ClientOf(n.id)) == n.parent
           && n.id in old(suspended) && n.ntype != Update
        then Without(old(suspended), {n.id})
        else old(suspended)
      ensures clients ==
        if n.id > 0 && n.id in old(registrations) && n.id !in old(clients)
        then old(clients)[n.id := NoClient]
        else old(clients)
    {
      var tmp := n;
      if n.id > 0 {
        var owned := false;
        if n.id in registrations {
          var owner := LookUpClient(n.id);
          owned := owner == n.parent;
        }
        if !owned {
          tmp := tmp.(id := -1);
        } else if n.id in suspended {
          if n.ntype == Update {
            return false;
          }
          suspended := Without(suspended, {n.id});
        }
      }
      notifications := notifications + [tmp];
      return true;
    }

    /**
     * ProcessQueue, run on the GUI thread only: first pops every screen due
     * for deletion, then shows each queued notification in queue order, and
     * empties the queue. A notification whose screen cannot be created is
     * skipped. Every positive id of a queued notification ends up registered,
     * and the screens shown are appended after the ones left on the list:
     * `parts[k]` holds the screen appended for the `k`-th queued
     * notification, if any, so that the screens appended are `parts` joined.
     */
    method ProcessQueue(onGuiThread: bool, themes: Themes)
      returns (ghost parts: seq<seq<NotificationScreen>>, ghost start: map<int, NotificationScreen?>)
      requires Valid()
      modifies this`deletedScreens, this`screens, this`registrations, this`suspended, this`notifications
      modifies screens`index, screens`position, Queued(notifications)
      ensures Valid()
      ensures !onGuiThread ==> unchanged(this) && unchanged(screens) && unchanged(Queued(notifications)) && parts == []
      ensures onGuiThread ==>
        && notifications == [] && deletedScreens == []
        && suspended == old(suspended) + old(Reinstated(deletedScreens, Ids(deletedScreens), registrations.Keys))
        && screens == Without(old(screens), Elements(old(deletedScreens))) + Flatten(parts)
        // `start` is the registrations once the deleted screens are popped
        && (forall i :: Unbound(start, i) <==>
              old(Unbound(registrations, i)) && i !in old(Reinstated(deletedScreens, Ids(deletedScreens), registrations.Keys)))
        && |parts| == |old(notifications)| && ShownFor(old(notifications), themes, parts, start)
        // every screen kept rises one rank per popped screen listed above it
        && (forall x :: x in Without(old(screens), Elements(old(deletedScreens))) ==> Offset(x) == old(Offset(x)))
        && (forall k :: 0 <= k < |old(notifications)| && old(notifications)[k].id > 0 ==>
              old(notifications)[k].id in registrations && Displayed(old(notifications)[k].id))
        // a screen shown for a notification without an id is new, holds what
        // the notification carries, and is initialised and on the screen stack
        && (forall k :: 0 <= k < |parts| && old(notifications)[k].id <= 0 && parts[k] != [] ==>
              && fresh(parts[k][0]) && parts[k][0].id == old(notifications)[k].id
              && parts[k][0].Held() == Made(old(notifications)[k]) && parts[k][0].added)
        // every screen listed or bound was listed or bound before, or is new
        && (forall s :: s in screens ==> s in old(screens) || s in old(Bound()) || fresh(s))
        && (forall s :: s in Bound() ==> s in old(Bound()) || fresh(s))
    {
      if !onGuiThread {
        // only logged: the queue waits for a call from the GUI thread
        return [], registrations;
      }
      parts, start := DrainQueue(themes);
    }

    /** ProcessQueue on the GUI thread. */
    method DrainQueue(themes: Themes)
      returns (ghost parts: seq<seq<NotificationScreen>>, ghost start: map<int, NotificationScreen?>)
      requires Valid()
      modifies this`deletedScreens, this`screens, this`registrations, this`suspended, this`notifications
      modifies screens`index, screens`position, Queued(notifications)
      ensures Valid()
      ensures
        && notifications == [] && deletedScreens == []
        && suspended == old(suspended) + old(Reinstated(deletedScreens, Ids(deletedScreens), registrations.Keys))
        && screens == Without(old(screens), Elements(old(deletedScreens))) + Flatten(parts)
        // `start` is the registrations once the deleted screens are popped
        && (forall i :: Unbound(start, i) <==>
              old(Unbound(registrations, i)) && i !in old(Reinstated(deletedScreens, Ids(deletedScreens), registrations.Keys)))
        && |parts| == |old(notifications)| && ShownFor(old(notifications), themes, parts, start)
        // every screen kept rises one rank per popped screen listed above it
        && (forall x :: x in Without(old(screens), Elements(old(deletedScreens))) ==> Offset(x) == old(Offset(x)))
        && (forall k :: 0 <= k < |old(notifications)| && old(notifications)[k].id > 0 ==>
              old(notifications)[k].id in registrations && Displayed(old(notifications)[k].id))
        // a screen shown for a notification without an id is new, holds what
        // the notification carries, and is initialised and on the screen stack
        && (forall k :: 0 <= k < |parts| && old(notifications)[k].id <= 0 && parts[k] != [] ==>
              && fresh(parts[k][0]) && parts[k][0].id == old(notifications)[k].id
              && parts[k][0].Held() == Made(old(notifications)[k]) && parts[k][0].added)
        // every screen listed or bound was listed or bound before, or is new
        && (forall s :: s in screens ==> s in old(screens) || s in old(Bound()) || fresh(s))
        && (forall s :: s in Bound() ==> s in old(Bound()) || fresh(s))
    {
      var queue := notifications;
      DeleteAllScreens();
      start := registrations;
      forall s | s in Queued(queue)
        ensures s in old(Queued(notifications)) || fresh(s)
      {
        var k :| 0 <= k < |queue| && Registered(queue[k].id) != {} && s == ScreenOf(queue[k].id);
        assert s == old(ScreenOf(queue[k].id)) ==> old(Registered(queue[k].id)) != {};
      }
      parts := ShowQueued(queue, themes);
    }

    /**
     * `parts` holds, for each notification of `queue` up to its own length,
     * the screen shown for it, if any, where `start` is the registrations
     * before the first. A notification with a positive id leaves that screen
     * registered under the id; one without needs a new screen, and gets one
     * iff a theme fits it; so does the first notification for a positive id
     * `start` binds no screen to, and later ones until a screen is shown.
     */
    ghost predicate ShownFor(queue: seq<Notification>, themes: Themes, parts: seq<seq<NotificationScreen>>,
                             start: map<int, NotificationScreen?>)
      reads this`registrations
    {
      && Chosen(queue, themes, parts)
      && KeptUnder(queue, parts, registrations)
      && FirstShown(queue, themes, parts, start)
      && Settled(queue, parts, start, registrations)
    }

    /** The screens registered under the positive ids of the notifications `queue`. */
    ghost function Queued(queue: seq<Notification>): set<NotificationScreen>
      reads this`registrations
    {
      set k | 0 <= k < |queue| && Registered(queue[k].id) != {} :: ScreenOf(queue[k].id)
    }

    /**
     * ProcessQueue's loop and the emptying of the queue: shows each
     * notification of `queue`, the queue as it was when the loop started, in
     * queue order. The loop walks that copy, as Qt's foreach does, and
     * nothing in it reads the queue, so the queue is emptied first here.
     */
    method ShowQueued(queue: seq<Notification>, themes: Themes) returns (ghost parts: seq<seq<NotificationScreen>>)
      requires Valid()
      modifies this`screens, this`registrations, this`notifications, Queued(queue)
      ensures Valid() && notifications == []
      ensures screens == old(screens) + Flatten(parts)
      ensures |parts| == |queue| && ShownFor(queue, themes, parts, old(registrations))
      // the screens listed before keep their ranks and positions
      ensures forall x :: x in old(screens) ==> x.index == old(x.index) && Offset(x) == old(Offset(x))
      ensures forall k :: 0 <= k < |queue| && queue[k].id > 0 ==>
        queue[k].id in registrations && Displayed(queue[k].id)
      ensures forall k :: 0 <= k < |parts| && queue[k].id <= 0 && parts[k] != [] ==>
        && fresh(parts[k][0]) && parts[k][0].id == queue[k].id
        && parts[k][0].Held() == Made(queue[k]) && parts[k][0].added
      ensures forall s :: s in Bound() ==> s in old(Bound()) || fresh(s)
      ensures forall s :: s in screens ==> s in old(screens) || s in old(Bound()) || fresh(s)
    {
      notifications := [];
      parts := [];
      ghost var displayed: set<int> := {};
      ghost var made: map<NotificationScreen, Notification> := map[];
      for k := 0 to |queue|
        invariant Valid() && notifications == []
        invariant |parts| == k
        invariant screens == old(screens) + Flatten(parts)
        invariant ShownFor(queue, themes, parts, old(registrations))
        invariant Tracked(queue, parts, displayed, made)
        invariant forall s :: s in old(screens) ==> s.index == old(s.index)
        invariant forall i :: ScreenOf(i) != null ==> ScreenOf(i) == old(ScreenOf(i)) || fresh(ScreenOf(i))
        invariant forall i :: i in displayed ==> i in registrations && Displayed(i)
        invariant forall s :: s in made ==> fresh(s) && s !in Bound() && s.id == made[s].id && s.Held() == Made(made[s]) && s.added
        invariant forall s :: s in Bound() ==> s in old(Bound()) || fresh(s)
        invariant forall s :: s in screens ==> s in old(screens) || s in old(Bound()) || fresh(s)
      {
        assert Registered(queue[k].id) != {} && ScreenOf(queue[k].id) == old(ScreenOf(queue[k].id)) ==>
          ScreenOf(queue[k].id) in old(Queued(queue));
        parts, displayed, made := ShowNext(queue, k, themes, old(screens), old(registrations), parts, displayed, made);
      }
      forall x | x in old(screens)
        ensures Offset(x) == old(Offset(x))
      {
        IndexOfAppend(old(screens), Flatten(parts), x);
      }
    }

    /**
     * One round of ShowQueued's loop. `displayed` holds the positive ids
     * shown so far, and `made` the screens created so far for notifications
     * without an id, each with its notification; those screens are bound to
     * no id, so later rounds leave them as they were made.
     */
    method ShowNext(queue: seq<Notification>, k: int, themes: Themes, ghost base: seq<NotificationScreen>,
                    ghost start: map<int, NotificationScreen?>,
                    ghost parts: seq<seq<NotificationScreen>>, ghost displayed: set<int>, ghost made: map<NotificationScreen, Notification>)
      returns (ghost next: seq<seq<NotificationScreen>>, ghost displayed': set<int>, ghost made': map<NotificationScreen, Notification>)
      requires Valid() && 0 <= k < |queue| && |parts| == k
      requires screens == base + Flatten(parts)
      requires ShownFor(queue, themes, parts, start) && Tracked(queue, parts, displayed, made)
      requires forall i :: i in displayed ==> i in registrations && Displayed(i)
      requires forall s :: s in made ==> s !in Bound() && s.id == made[s].id && s.Held() == Made(made[s]) && s.added
      modifies this`screens, this`registrations, Registered(queue[k].id)
      ensures Valid()
      ensures |next| == k + 1 && next == parts + [next[k]]
      ensures screens == old(screens) + next[k] == base + Flatten(next)
      ensures ShownFor(queue, themes, next, start) && Tracked(queue, next, displayed', made')
      ensures forall s :: s in old(screens) ==> s.index == old(s.index)
      ensures forall i :: ScreenOf(i) != null ==> ScreenOf(i) == old(ScreenOf(i)) || fresh(ScreenOf(i))
      ensures forall i :: i in displayed' ==> i in registrations && Displayed(i)
      ensures forall s :: s in made' ==>
        s !in Bound() && s.id == made'[s].id && s.Held() == Made(made'[s]) && s.added && (s in made || fresh(s))
      ensures forall s :: s in Bound() ==> s in old(Bound()) || fresh(s)
      ensures forall s :: s in next[k] ==> s in old(Bound()) || fresh(s)
    {
      ghost var bound := Bound();
      ghost var touched := Registered(queue[k].id);
      next, displayed', made' := ShowStep(queue, k, themes, base, start, parts, displayed, made);
      forall s | s in made'
        ensures s !in Bound() && s.id == made'[s].id && s.Held() == Made(made'[s]) && s.added && (s in made || fresh(s))
      {
        if s in made {
          assert s !in bound && s !in touched;
        }
      }
    }

    /**
     * The accounting of one round of ShowQueued's loop: shows the `k`-th
     * queued notification and records the screen appended for it, if any,
     * as the next part.
     */
    method ShowStep(queue: seq<Notification>, k: int, themes: Themes, ghost base: seq<NotificationScreen>,
                    ghost start: map<int, NotificationScreen?>,
                    ghost parts: seq<seq<NotificationScreen>>, ghost displayed: set<int>, ghost made: map<NotificationScreen, Notification>)
      returns (ghost next: seq<seq<NotificationScreen>>, ghost displayed': set<int>, ghost made': map<NotificationScreen, Notification>)
      requires Valid() && 0 <= k < |queue| && |parts| == k
      requires screens == base + Flatten(parts)
      requires ShownFor(queue, themes, parts, start) && Tracked(queue, parts, displayed, made)
      requires forall i :: i in displayed ==> i in registrations && Displayed(i)
      modifies this`screens, this`registrations, Registered(queue[k].id)
      ensures Valid()
      ensures |next| == k + 1 && next == parts + [next[k]]
      ensures screens == old(screens) + next[k] == base + Flatten(next)
      ensures ShownFor(queue, themes, next, start) && Tracked(queue, next, displayed', made')
      ensures forall s :: s in old(screens) ==> s.index == old(s.index)
      ensures forall i :: ScreenOf(i) != null ==> ScreenOf(i) == old(ScreenOf(i)) || fresh(ScreenOf(i))
      ensures forall i :: i in displayed' ==> i in registrations && Displayed(i)
      // a screen shown for a notification without an id is new and bound to no id
      ensures made' == if queue[k].id <= 0 && next[k] != [] then made[next[k][0] := queue[k]] else made
      ensures queue[k].id <= 0 && next[k] != [] ==>
        var s := next[k][0];
        fresh(s) && s !in Bound() && s.id == queue[k].id && s.Held() == Made(queue[k]) && s.added
      ensures forall s :: s in Bound() ==> s in old(Bound()) || fresh(s)
      ensures forall s :: s in next[k] ==> s in old(Bound()) || fresh(s)
    {
      ghost var before := registrations;
      ghost var id := queue[k].id;
      if id > 0 && !Unbound(registrations, id) && Unbound(start, id) {
        // a screen already shown for the id is on the list
        ShownListed(queue, parts, registrations, id);
      }
      var more := ShowRound(queue[k], themes, displayed);
      next := parts + [more];
      displayed' := if id > 0 then displayed + {id} else displayed;
      made' := if id <= 0 && more != [] then made[more[0] := queue[k]] else made;
      FlattenSnoc(parts, more);
      Regrouped(base, Flatten(parts), more);
      RoundStep(queue, themes, parts, more, start, before, registrations, displayed, made);
    }

    /**
     * The screen work of one round of ShowQueued's loop: shows `n`, keeps
     * the ids in `displayed` displayed, and states how the registrations
     * moved, in the terms ShowStep accounts for them.
     */
    method ShowRound(n: Notification, themes: Themes, ghost displayed: set<int>) returns (ghost more: seq<NotificationScreen>)
      requires Valid()
      requires forall i :: i in displayed ==> i in registrations && Displayed(i)
      modifies this`screens, this`registrations, Registered(n.id)
      ensures Valid()
      ensures screens == old(screens) + more && |more| <= 1
      ensures forall s :: s in old(screens) ==> s.index == old(s.index)
      ensures forall i :: ScreenOf(i) != null ==> ScreenOf(i) == old(ScreenOf(i)) || fresh(ScreenOf(i))
      ensures forall i :: i in displayed ==> i in registrations && Displayed(i)
      ensures n.id > 0 ==> n.id in registrations && Displayed(n.id)
      ensures forall s :: s in Bound() ==> s in old(Bound()) || fresh(s)
      ensures forall s :: s in more ==> s in old(Bound()) || fresh(s)
      // a notification without an id gets a new screen, bound to no id, iff a theme fits it
      ensures n.id <= 0 ==> registrations == old(registrations) && (more != [] <==> ThemeFor(n, themes).Some?)
      ensures n.id <= 0 && more != [] ==>
        fresh(more[0]) && more[0] !in Bound() && more[0].id == n.id && more[0].Held() == Made(n) && more[0].added
      // a positive id keeps its screen, or is bound to the new one iff a theme fits it
      ensures n.id > 0 ==> n.id in registrations && registrations == old(registrations)[n.id := registrations[n.id]]
      ensures n.id > 0 && !Unbound(old(registrations), n.id) ==> registrations[n.id] == old(registrations)[n.id]
      ensures n.id > 0 && Unbound(old(registrations), n.id) ==>
        && (more != [] <==> ThemeFor(n, themes).Some?)
        && (Unbound(registrations, n.id) <==> more == [])
      ensures n.id > 0 && more != [] ==> registrations[n.id] == more[0]
      ensures n.id > 0 && !Unbound(old(registrations), n.id) && old(ScreenOf(n.id)) in old(screens) ==> more == []
    {
      more := ProcessNotification(n, themes);
    }

    /**
     * One round of ProcessQueue's loop: finds or creates the screen for `n`
     * and shows it; `shown` is the screen appended to the list, if any.
     */
    method ProcessNotification(n: Notification, themes: Themes) returns (ghost shown: seq<NotificationScreen>)
      requires Valid()
      modifies this`screens, this`registrations, Registered(n.id)
      ensures Valid()
      ensures deletedScreens == old(deletedScreens)
      ensures n.id > 0 ==> n.id in registrations && Displayed(n.id)
      ensures forall i :: i != n.id && i in old(registrations) ==> i in registrations && registrations[i] == old(registrations)[i]
      ensures forall s :: s in old(Bound()) && old(s.created) ==> s.created
      ensures forall i :: i in old(registrations) && old(Displayed(i)) ==> Displayed(i)
      ensures screens == old(screens) + shown && |shown| <= 1
      // a notification that needs a new screen is shown iff a theme fits it, and skipped otherwise
      ensures (n.id <= 0 || old(ScreenOf(n.id)) == null) ==> (shown != [] <==> ThemeFor(n, themes).Some?)
      ensures n.id <= 0 ==> registrations == old(registrations)
      ensures forall s :: s in old(screens) ==> s.id == old(s.id)
      ensures (n.id <= 0 || old(ScreenOf(n.id)) == null) && shown != [] ==> fresh(shown[0]) && shown[0].id == n.id
      // a screen already registered and listed is updated in place, not shown again
      ensures n.id > 0 && old(ScreenOf(n.id)) != null && old(ScreenOf(n.id)) in old(screens) ==> shown == []
      ensures n.id > 0 ==> registrations == old(registrations)[n.id := registrations[n.id]]
      ensures forall s :: s in old(screens) ==> s.index == old(s.index)
      // a registered screen keeps its id; a new one is registered iff it is shown
      ensures n.id > 0 ==>
        registrations[n.id] == (if old(ScreenOf(n.id)) != null then old(ScreenOf(n.id)) else if shown == [] then null else shown[0])
      ensures n.id > 0 && shown != [] ==> registrations[n.id] == shown[0]
      // the screen the notification reaches carries its content
      ensures (n.id <= 0 || old(ScreenOf(n.id)) == null) && shown != [] ==> shown[0].Held() == Made(n)
      ensures n.id > 0 && old(ScreenOf(n.id)) != null ==>
        var prior := old(ScreenOf(n.id));
        prior.Held() == Received(old(prior.Held()), n)
      ensures forall s :: s in Bound() ==> s in old(Bound()) || fresh(s)
      ensures forall s :: s in shown ==> s in old(Bound()) || fresh(s)
      // the screen appended is initialised and on the screen stack
      ensures shown != [] ==> shown[0].added && shown[0].update == NoFlags
    {
      ghost var prior := if n.id > 0 then ScreenOf(n.id) else null;
      assert prior != null ==> prior in Bound();
      var screen, created := ScreenFor(n, themes);
      shown := [];
      if screen != null {
        if created || screen !in screens {
          shown := [screen];
        }
        Show(screen, created);
      }
    }

    /**
     * The screen registered under `id`, once its theme is loaded, is on the
     * list, initialised and added to the screen stack.
     */
    ghost predicate Displayed(id: int)
      reads this`registrations, this`screens, Bound()
    {
      id in registrations && registrations[id] != null && registrations[id].created ==>
        registrations[id] in screens && registrations[id].added && registrations[id].update == NoFlags
    }

    /** The screen registered under a positive `id`, if any, as a set. */
    function Registered(id: int): set<NotificationScreen>
      reads this`registrations
    {
      if id > 0 && ScreenOf(id) != null then {ScreenOf(id)} else {}
    }

    /** The screen registered under `id`, as `m_registrations[id]` reads it. */
    function ScreenOf(id: int): NotificationScreen?
      reads this`registrations
    {
      if id in registrations then registrations[id] else null
    }

    /**
     * `m_registrations[id]`: reads the screen of `id`, inserting a null screen
     * first when the map does not hold `id`, as QMap::operator[] does.
     */
    method LookUpScreen(id: int) returns (screen: NotificationScreen?)
      modifies this`registrations
      ensures screen == old(ScreenOf(id))
      ensures registrations == if id in old(registrations) then old(registrations) else old(registrations)[id := null]
    {
      if id !in registrations {
        registrations := registrations[id := null];
      }
      screen := registrations[id];
    }

    /**
     * The first half of ProcessQueue's loop body: the screen registered under
     * a positive id receives the notification; when there is none, a new
     * screen is made from it and registered under the id. A screen not yet
     * created loads its theme. The result is null when no screen could be
     * created; `created` tells whether the screen was created just now.
     */
    method ScreenFor(n: Notification, themes: Themes) returns (screen: NotificationScreen?, created: bool)
      requires Valid()
      modifies this`registrations, Registered(n.id)
      ensures Valid()
      ensures var prior := if n.id > 0 then old(ScreenOf(n.id)) else null;
        && (n.id > 0 ==> registrations == old(registrations)[n.id := if prior == null then screen else prior])
        && (n.id <= 0 ==> registrations == old(registrations))
        && (screen != null ==> screen.created)
        && (created ==> screen != null && screen !in old(screens))
        && (prior == null ==>
              && (screen == null <==> ThemeFor(n, themes).None?)
              && (created <==> screen != null)
              && (screen != null ==>
                    && fresh(screen) && screen.id == n.id && screen.update == UpdateFlags(n)
                    && screen.index == 0 && screen.fullscreen == (n.ntype != Update && n.fullscreen)
                    && screen.Held() == Made(n)))
        && (prior != null ==>
              && prior.Held() == Received(old(prior.Held()), n)
              && prior.update == UpdateFlags(n)
              && prior.index == old(prior.index)
              && prior.fullscreen == (if n.ntype == Update then old(prior.fullscreen) else n.fullscreen)
              && (screen == null <==> !old(prior.created) && !prior.created)
              && (screen != null ==> screen == prior)
              && (created <==> screen != null && !old(prior.created))
              && (!old(prior.created) ==>
                    (prior.created <==> ResolveTheme(prior.fullscreen, Has(prior.content, ImageFlag), prior.style, themes).Some?)))
      ensures forall s :: s in Bound() ==> s in old(Bound()) || fresh(s)
      ensures forall s :: s in old(Registered(n.id)) ==> s.id == old(s.id)
      ensures forall s :: s in old(Bound()) && old(s.created) ==> s.created
      // every id left undisplayed, its own included, is bound to the screen still to be shown
      ensures n.id > 0 ==> Displayed(n.id) || registrations[n.id] == screen
      ensures forall i :: i in old(registrations) && old(Displayed(i)) ==>
        i in registrations && (Displayed(i) || registrations[i] == screen)
    {
      screen, created := Obtain(n, themes);
      // a screen whose window was never built is given one here
      if screen != null && !screen.created {
        var ok := screen.Create(themes);
        if !ok {
          // the screen is deleted in place; its registration is left as it is
          screen := null;
          return;
        }
        created := true;
      }
    }

    /**
     * The lookup in ProcessQueue's loop body: the screen registered under a
     * positive id receives the notification; when there is none, a new screen
     * is made from it and registered under the id. The result is null when
     * that screen could not be created.
     */
    method Obtain(n: Notification, themes: Themes) returns (screen: NotificationScreen?, created: bool)
      requires Valid()
      modifies this`registrations, Registered(n.id)
      ensures Valid()
      ensures var prior := if n.id > 0 then old(ScreenOf(n.id)) else null;
        && (n.id > 0 ==> registrations == old(registrations)[n.id := if prior == null then screen else prior])
        && (n.id <= 0 ==> registrations == old(registrations))
        && (prior == null ==>
              && (screen == null <==> ThemeFor(n, themes).None?)
              && (created <==> screen != null)
              && (screen != null ==>
                    && fresh(screen) && screen.created && screen.id == n.id && screen.update == UpdateFlags(n)
                    && screen.index == 0 && screen.fullscreen == (n.ntype != Update && n.fullscreen)
                    && screen.Held() == Made(n)))
        && (prior != null ==>
              && screen == prior && !created
              && prior.Held() == Received(old(prior.Held()), n)
              && prior.update == UpdateFlags(n) && prior.created == old(prior.created)
              && prior.index == old(prior.index)
              && prior.fullscreen == (if n.ntype == Update then old(prior.fullscreen) else n.fullscreen))
      ensures forall s :: s in Bound() ==> s in old(Bound()) || fresh(s)
      ensures forall s :: s in old(Registered(n.id)) ==> s.id == old(s.id)
      ensures forall s :: s in old(Bound()) && old(s.created) ==> s.created
      ensures n.id > 0 ==> Displayed(n.id) || registrations[n.id] == screen
      ensures forall i :: i in old(registrations) && old(Displayed(i)) ==>
        i in registrations && (Displayed(i) || registrations[i] == screen)
    {
      var id := n.id;
      created := false;
      screen := null;
      if id > 0 {
        screen := LookUpScreen(id);
      }
      if screen == null {
        // the id is registered but bound to no screen: build a new one
        screen := CreateScreen(n, themes);
        if screen == null {
          return;
        }
        if id > 0 {
          registrations := registrations[id := screen];
        }
        created := true;
      } else {
        screen.SetNotification(n);
      }
    }

    /**
     * The theme name CreateScreen loads for a new screen made from `n`, or
     * None when the themes hold neither candidate.
     */
    static function ThemeFor(n: Notification, themes: Themes): (r: Option<string>)
      ensures r.Some? ==> r.value in themes
      ensures n.ntype == Update ==> r == ResolveTheme(false, false, n.style, themes)
    {
      ResolveTheme(n.ntype != Update && n.fullscreen, n.ntype != Update && ArtworkOf(n.kind).Some?, n.style, themes)
    }

    /**
     * CreateScreen: makes a screen from the notification and loads its
     * theme; the result is null when no theme fits.
     */
    method CreateScreen(n: Notification, themes: Themes) returns (screen: NotificationScreen?)
      ensures screen == null <==> ThemeFor(n, themes).None?
      ensures screen != null ==>
        && fresh(screen) && screen.created && !screen.added
        && screen.id == n.id && screen.index == 0 && screen.update == UpdateFlags(n)
        && screen.fullscreen == (n.ntype != Update && n.fullscreen)
        && screen.Held() == Made(n)
    {
      screen := new NotificationScreen.FromNotification(n);
      var ok := screen.Create(themes);
      if !ok {
        // the screen cannot be displayed, so it is dropped
        screen := null;
      }
    }

    /**
     * The second half of ProcessQueue's loop body: a screen created just now
     * or not yet on the list is appended, taking the rank of its position
     * unless it is fullscreen; the screen is then initialised.
     */
    method Show(screen: NotificationScreen, created: bool)
      requires Valid() && screen.created
      requires created ==> screen !in screens
      modifies this`screens, screen`index, screen`position, screen`update, screen`added
      ensures Valid()
      ensures screens == if created || screen !in old(screens) then old(screens) + [screen] else old(screens)
      ensures screen.added && screen.update == NoFlags && screen.position == screen.Target()
      ensures screen.Held() == old(screen.Held())
      ensures (created || screen !in old(screens)) && !screen.fullscreen ==> screen.index == |screens| - 1
      ensures screen.fullscreen || (!created && screen in old(screens)) ==> screen.index == old(screen.index)
      ensures old(Stacked()) ==> Stacked()
      ensures forall i :: old(Displayed(i)) || (i in registrations && registrations[i] == screen) ==> Displayed(i)
    {
      if created || screen !in screens {
        var pos := InsertScreen(screen);
        if !screen.fullscreen {
          // a new non-fullscreen screen takes the rank of its slot in the list
          screen.AdjustIndex(pos, true);
          // the screen was appended, so there are no screens after it to move down
          assert pos == |screens| - 1;
        }
      }
      var _, _, _, _ := screen.Init();
    }

    /** InsertScreen: appends the screen and returns its position, the old length. */
    method InsertScreen(screen: NotificationScreen) returns (pos: int)
      modifies this`screens
      ensures screens == old(screens) + [screen]
      ensures pos == |old(screens)| && screens[pos] == screen
    {
      pos := |screens|;
      screens := screens + [screen];
    }

    /**
     * RemoveScreen: takes the first occurrence of the screen off the list and
     * returns the position it had, or the length of the list when it is not
     * listed.
     */
    method RemoveScreen(screen: NotificationScreen) returns (pos: int)
      modifies this`screens
      ensures pos == (if screen in old(screens) then IndexOf(old(screens), screen) else |old(screens)|)
      ensures screens == if screen in old(screens) then old(screens)[..pos] + old(screens)[pos + 1..] else old(screens)
    {
      pos := 0;
      while pos < |screens| && screens[pos] != screen
        invariant 0 <= pos <= |screens|
        invariant screen !in screens[..pos]
      {
        pos := pos + 1;
      }
      if pos < |screens| {
        screens := screens[..pos] + screens[pos + 1..];
      } else {
        assert screens[..pos] == screens;
      }
    }

    /**
     * AdjustScreenPosition: moves every listed screen from position `from` on
     * one rank down (`down`) or up and repositions it, and leaves the screens
     * before it alone.
     */
    method AdjustScreenPosition(from: int, down: bool)
      requires Valid() && 0 <= from <= |screens|
      modifies screens`index, screens`position
      ensures Valid()
      ensures forall k :: 0 <= k < |screens| ==>
        screens[k].index == old(screens[k].index) + (if from <= k then (if down then 1 else -1) else 0)
      ensures forall k :: from <= k < |screens| ==> screens[k].position == screens[k].Target()
      ensures forall k :: 0 <= k < from ==> screens[k].position == old(screens[k].position)
      // moving the screens back by one rank repairs a stack they were one rank off in
      ensures old(StackedBut(from, if down then -1 else 1)) ==> Stacked()
    {
      var delta := if down then 1 else -1;
      for k := from to |screens|
        invariant forall j :: 0 <= j < |screens| ==>
          screens[j].index == old(screens[j].index) + (if from <= j < k then delta else 0)
        invariant forall j :: from <= j < k ==> screens[j].position == screens[j].Target()
        invariant forall j :: 0 <= j < from || k <= j < |screens| ==>
          screens[j].position == old(screens[j].position)
      {
        screens[k].AdjustIndex(delta, false);
      }
    }

    /**
     * ScreenDeleted, run whenever a screen leaves the screen stack: forgets it
     * as due for deletion, takes it off the list and moves every later screen
     * up a rank. When its id is still registered and it was not due for
     * deletion, a copy of it, not yet created, takes its place under the id
     * and the id is suspended.
     */
    method ScreenDeleted(screen: NotificationScreen)
      requires Valid()
      modifies this`deletedScreens, this`screens, this`registrations, this`suspended
      modifies screens`index, screens`position
      ensures Valid()
      ensures old(Stacked()) ==> Stacked()
      ensures deletedScreens == Without(old(deletedScreens), {screen})
      ensures screens == Without(old(screens), {screen})
      ensures forall i :: 0 <= i < |old(screens)| && old(screens)[i] != screen ==>
        old(screens)[i].index == old(screens[i].index) - (if screen in old(screens)[..i] then 1 else 0)
      ensures screen.id in old(registrations) && screen !in old(deletedScreens) ==>
        && screen.id in registrations
        && suspended == old(suspended) + [screen.id]
        && var copy := registrations[screen.id];
           && copy != null && fresh(copy) && copy.HoldsContentOf(screen)
           && !copy.created && copy.update == AllFlags
      ensures !(screen.id in old(registrations) && screen !in old(deletedScreens)) ==>
        registrations == old(registrations) && suspended == old(suspended)
      ensures registrations.Keys == old(registrations).Keys
      ensures forall i :: i != screen.id && i in old(registrations) ==> registrations[i] == old(registrations)[i]
      ensures forall s :: s in Bound() ==> s in old(Bound()) || fresh(s)
      // every screen left keeps its rank minus its position
      ensures forall x :: x in screens ==> Offset(x) == old(Offset(x))
    {
      // the registration part touches neither the list nor any rank, so it is
      // done before the list part here; the resulting state is the same
      Release(screen);
      Unlist(screen);
    }

    /**
     * The bookkeeping part of ScreenDeleted: forgets the screen as due for
     * deletion and, when it was not due and its id is still registered,
     * registers an uncreated copy of it under the id and suspends the id.
     */
    method Release(screen: NotificationScreen)
      requires Valid()
      modifies this`deletedScreens, this`registrations, this`suspended
      ensures Valid()
      ensures deletedScreens == Without(old(deletedScreens), {screen})
      ensures screen.id in old(registrations) && screen !in old(deletedScreens) ==>
        && screen.id in registrations
        && suspended == old(suspended) + [screen.id]
        && var copy := registrations[screen.id];
           && copy != null && fresh(copy) && copy.HoldsContentOf(screen)
           && !copy.created && copy.update == AllFlags
      ensures !(screen.id in old(registrations) && screen !in old(deletedScreens)) ==>
        registrations == old(registrations) && suspended == old(suspended)
      ensures registrations.Keys == old(registrations).Keys
      ensures forall i :: i != screen.id && i in old(registrations) ==> registrations[i] == old(registrations)[i]
      ensures forall s :: s in Bound() ==> s in old(Bound()) || fresh(s)
    {
      var due := Forget(screen);
      Reinstate(screen, due);
    }

    /**
     * The first part of ScreenDeleted: tells whether the screen was due for
     * deletion and, if so, removes it from the screens due for deletion.
     */
    method Forget(screen: NotificationScreen) returns (due: bool)
      requires Valid()
      modifies this`deletedScreens
      ensures Valid()
      ensures due <==> screen in old(deletedScreens)
      ensures deletedScreens == Without(old(deletedScreens), {screen})
    {
      due := screen in deletedScreens;
      if due {
        deletedScreens := Without(deletedScreens, {screen});
      } else {
        WithoutNothingOf(deletedScreens, {screen});
      }
    }

    /**
     * Takes the screen at position `n` off the list; the screens after it are
     * then one rank below their new positions.
     */
    method DropAt(n: int)
      requires Valid() && 0 <= n < |screens|
      modifies this`screens
      ensures Valid()
      ensures screens == old(screens[..n] + screens[n + 1..])
      ensures old(Stacked()) ==> StackedBut(n, 1)
    {
      ghost var before := screens;
      screens := screens[..n] + screens[n + 1..];
      if old(Stacked()) {
        forall k | 0 <= k < |screens| && !screens[k].fullscreen
          ensures screens[k].index == k + (if n <= k then 1 else 0)
        {
          if k < n {
            assert screens[k] == before[k];
          } else {
            assert screens[k] == before[k + 1];
          }
        }
      }
    }

    /**
     * The registration part of ScreenDeleted: when the screen's id is still
     * registered and the screen was not due for deletion, a copy of the screen
     * takes its place under the id and the id is suspended.
     */
    method Reinstate(screen: NotificationScreen, due: bool)
      requires Valid()
      modifies this`registrations, this`suspended
      ensures Valid()
      ensures screen.id in old(registrations) && !due ==>
        screen.id in registrations &&
        var copy := registrations[screen.id];
        && copy != null && fresh(copy) && copy.HoldsContentOf(screen)
        && !copy.created && copy.update == AllFlags
        && registrations == old(registrations)[screen.id := copy]
        && suspended == old(suspended) + [screen.id]
      ensures !(screen.id in old(registrations) && !due) ==>
        registrations == old(registrations) && suspended == old(suspended)
      ensures registrations.Keys == old(registrations).Keys
      ensures forall s :: s in Bound() ==> s in old(Bound()) || fresh(s)
    {
      if screen.id in registrations && !due {
        // the client is still registered: re-create the screen and suspend the id
        var copy := new NotificationScreen.Copy(screen);
        registrations := registrations[screen.id := copy];
        suspended := suspended + [screen.id];
      }
    }

    /**
     * The list part of ScreenDeleted: takes the screen off the list and moves
     * every screen after it up a rank, which keeps the stacking gap-free.
     */
    method Unlist(screen: NotificationScreen)
      requires Valid()
      modifies this`screens, screens`index, screens`position
      ensures Valid()
      ensures screens == Without(old(screens), {screen})
      ensures forall i :: 0 <= i < |old(screens)| && old(screens)[i] != screen ==>
        old(screens)[i].index == old(screens[i].index) - (if screen in old(screens)[..i] then 1 else 0)
      ensures screen.index == old(screen.index)
      ensures old(Stacked()) ==> Stacked()
      // every screen left keeps its rank minus its position
      ensures forall x :: x in screens ==> Offset(x) == old(Offset(x))
    {
      var n := IndexOf(screens, screen);
      if n >= 0 {
        ghost var before := screens;
        WithoutAt(screens, n);
        UnlistAt(n);
        forall i | 0 <= i < |before| && before[i] != screen
          ensures before[i].index == old(before[i].index) - (if screen in before[..i] then 1 else 0)
        {
          Precedes(before, n, i);
        }
      } else {
        WithoutNothingOf(screens, {screen});
      }
    }

    /**
     * Takes the screen at position `n` off the list and moves every screen
     * after it up a rank, so every screen left keeps its rank minus its
     * position.
     */
    method UnlistAt(n: int)
      requires Valid() && 0 <= n < |screens|
      modifies this`screens, screens`index, screens`position
      ensures Valid()
      ensures screens == old(screens[..n] + screens[n + 1..])
      ensures forall i :: 0 <= i < |old(screens)| && i != n ==>
        old(screens)[i].index == old(screens[i].index) - (if n < i then 1 else 0)
      ensures old(screens)[n].index == old(screens[n].index)
      ensures old(Stacked()) ==> Stacked()
      ensures forall x :: x in screens ==> Offset(x) == old(Offset(x))
    {
      ghost var before := screens;
      DropAndShift(n);
      forall x | x in screens
        ensures x.index - IndexOf(screens, x) == old(x.index) - IndexOf(before, x)
      {
        var k := IndexOf(screens, x);
        var i := if k < n then k else k + 1;
        assert before[i] == x && i != n;
        IndexOfAt(before, i);
      }
    }

    /** Takes the screen at position `n` off the list and moves every screen after it up a rank. */
    method DropAndShift(n: int)
      requires Valid() && 0 <= n < |screens|
      modifies this`screens, screens`index, screens`position
      ensures Valid()
      ensures screens == old(screens[..n] + screens[n + 1..])
      ensures forall i :: 0 <= i < |old(screens)| && i != n ==>
        old(screens)[i].index == old(screens[i].index) - (if n < i then 1 else 0)
      ensures old(screens)[n].index == old(screens[n].index)
      ensures old(Stacked()) ==> Stacked()
    {
      ghost var before := screens;
      DropAt(n);
      forall k | 0 <= k < |screens|
        ensures screens[k] != before[n]
      {
        assert screens[k] == if k < n then before[k] else before[k + 1];
      }
      AdjustScreenPosition(n, false);
      forall i | 0 <= i < |before| && i != n
        ensures before[i].index == old(before[i].index) - (if n < i then 1 else 0)
      {
        if i < n {
          assert screens[i] == before[i];
        } else {
          assert screens[i - 1] == before[i];
        }
      }
    }

    /**
     * DeleteAllScreens: pops every screen due for deletion, last first; each
     * is taken off the list before it is popped, so ScreenDeleted does not
     * see it as due for deletion unless it was on the list twice. A popped
     * screen whose id is still registered is therefore replaced by a copy,
     * and its id suspended, in the order `Reinstated` gives.
     */
    method DeleteAllScreens()
      requires Valid()
      modifies this`deletedScreens, this`screens, this`registrations, this`suspended
      modifies screens`index, screens`position
      ensures Valid()
      ensures deletedScreens == []
      ensures screens == Without(old(screens), Elements(old(deletedScreens)))
      ensures old(Stacked()) ==> Stacked()
      // every screen left rises one rank per popped screen listed above it
      ensures forall x :: x in screens ==> Offset(x) == old(Offset(x))
      ensures suspended == old(suspended) + old(Reinstated(deletedScreens, Ids(deletedScreens), registrations.Keys))
      ensures registrations.Keys == old(registrations).Keys
      ensures forall i :: i in old(registrations) && i !in old(Reinstated(deletedScreens, Ids(deletedScreens), registrations.Keys)) ==>
        registrations[i] == old(registrations)[i]
      ensures forall i :: i in old(Reinstated(deletedScreens, Ids(deletedScreens), registrations.Keys)) ==>
        i in registrations && registrations[i] != null && fresh(registrations[i])
        && !registrations[i].created && registrations[i].update == AllFlags && registrations[i].id == i
      ensures forall s :: s in Bound() ==> s in old(Bound()) || fresh(s)
      ensures forall i :: Unbound(registrations, i) <==>
        old(Unbound(registrations, i)) && i !in old(Reinstated(deletedScreens, Ids(deletedScreens), registrations.Keys))
      ensures forall i :: ScreenOf(i) != null ==> ScreenOf(i) == old(ScreenOf(i)) || fresh(ScreenOf(i))
      // each copy holds the content of a screen popped under its id
      ensures forall i :: i in old(Reinstated(deletedScreens, Ids(deletedScreens), registrations.Keys)) ==>
        exists s :: s in old(deletedScreens) && registrations[i] != null && registrations[i].HoldsContentOf(s)
    {
      ghost var before := registrations;
      ghost var ids := Ids(deletedScreens);
      ghost var all := Reinstated(deletedScreens, ids, registrations.Keys);
      ghost var popped, src := PopAll(ids, before, all);
      assert popped == Elements(old(deletedScreens));
      forall i | i in all
        ensures fresh(registrations[i])
      {
        assert registrations[i] in Bound() && registrations[i] !in old(Bound());
      }
    }

    /**
     * The loop of DeleteAllScreens: pops the screens due for deletion, last
     * first, until none is left; `popped` is the set of screens it popped.
     */
    method PopAll(ghost ids: map<NotificationScreen, int>, ghost before: map<int, NotificationScreen?>, ghost all: seq<int>)
      returns (ghost popped: set<NotificationScreen>, ghost src: map<int, NotificationScreen>)
      requires Valid() && IdsAgree(deletedScreens, ids)
      requires all == Reinstated(deletedScreens, ids, registrations.Keys) && before == registrations
      modifies this`deletedScreens, this`screens, this`registrations, this`suspended
      modifies screens`index, screens`position
      ensures Valid() && deletedScreens == []
      ensures Popping(ids, before, all, all, popped, old(screens), old(deletedScreens), old(suspended))
      // every id suspended holds a copy of the screen `src` gives for it, the
      // last popped under that id
      ensures forall i :: i in all ==>
        && i in src && src[i] in popped && i in registrations && registrations[i] != null
        && registrations[i].HoldsContentOf(src[i])
      ensures old(Stacked()) ==> Stacked()
      ensures forall x :: x in screens ==> x in old(screens) && Offset(x) == old(Offset(x))
      ensures forall s :: s in Bound() ==> s in old(Bound()) || fresh(s)
    {
      popped, src := {}, map[];
      ghost var done: seq<int> := [];
      WithoutNothing(screens);
      while deletedScreens != []
        invariant Valid()
        invariant Popping(ids, before, done, all, popped, old(screens), old(deletedScreens), old(suspended))
        invariant forall i :: i in done ==>
          && i in src && src[i] in popped && i in registrations && registrations[i] != null
          && registrations[i] !in old(screens) && registrations[i].HoldsContentOf(src[i])
        invariant old(Stacked()) ==> Stacked()
        invariant forall x :: x in screens ==> x in old(screens) && Offset(x) == old(Offset(x))
        invariant forall s :: s in Bound() ==> s in old(Bound()) || fresh(s)
        decreases |deletedScreens|
      {
        assert forall i :: 0 <= i < |screens| ==> screens[i] in old(screens);
        done, popped, src := PopRound(ids, before, done, all, popped, old(screens), old(deletedScreens), old(suspended), src);
      }
      assert Reinstated(deletedScreens, ids, registrations.Keys) == [];
      assert done == all;
    }

    /**
     * Where DeleteAllScreens stands against its start: `orig`, `pending` and
     * `held` are the screen list, the deletion list and the suspended ids
     * there, `popped` the screens popped since and `done` the ids suspended
     * since, `all` every id it suspends in the end.
     */
    ghost predicate Popping(ids: map<NotificationScreen, int>, before: map<int, NotificationScreen?>, done: seq<int>,
                            all: seq<int>, popped: set<NotificationScreen>,
                            orig: seq<NotificationScreen>, pending: seq<NotificationScreen>, held: seq<int>)
      reads this`screens, this`deletedScreens, this`suspended, this`registrations, deletedScreens`id
      reads registrations.Values`created, registrations.Values`update, registrations.Values`id
    {
      && screens == Without(orig, popped)
      && (forall s :: s in deletedScreens ==> s in pending && s !in popped)
      && (forall s :: s in pending && s !in popped ==> s in deletedScreens)
      && (forall s :: s in popped ==> s in pending)
      && suspended == held + done
      && IdsAgree(deletedScreens, ids)
      && done + Reinstated(deletedScreens, ids, registrations.Keys) == all
      && CopiedSince(registrations, before, done)
    }

    /**
     * The loop body of DeleteAllScreens: one screen popped, with the
     * screens left keeping their offsets. `src` gives, for each id suspended
     * so far, the screen last popped under it, which its copy holds.
     */
    method PopRound(ghost ids: map<NotificationScreen, int>, ghost before: map<int, NotificationScreen?>, ghost done: seq<int>,
                    ghost all: seq<int>, ghost popped: set<NotificationScreen>,
                    ghost orig: seq<NotificationScreen>, ghost pending: seq<NotificationScreen>, ghost held: seq<int>,
                    ghost src: map<int, NotificationScreen>)
      returns (ghost done': seq<int>, ghost popped': set<NotificationScreen>, ghost src': map<int, NotificationScreen>)
      requires Valid() && deletedScreens != []
      requires Popping(ids, before, done, all, popped, orig, pending, held)
      requires forall i :: i in done ==>
        && i in src && src[i] in popped && i in registrations && registrations[i] != null
        && registrations[i] !in orig && registrations[i].HoldsContentOf(src[i])
      modifies this`deletedScreens, this`screens, this`registrations, this`suspended
      modifies screens`index, screens`position
      ensures Valid()
      ensures Popping(ids, before, done', all, popped', orig, pending, held)
      // every id suspended holds a new copy of the screen `src'` gives for it,
      // the last popped under that id
      ensures forall i :: i in done' ==>
        && i in src' && src'[i] in popped' && i in registrations && registrations[i] != null
        && registrations[i] !in orig && registrations[i].HoldsContentOf(src'[i])
      ensures |deletedScreens| < |old(deletedScreens)|
      ensures old(Stacked()) ==> Stacked()
      ensures forall x :: x in screens ==> x in old(screens) && Offset(x) == old(Offset(x))
      ensures forall s :: s in Bound() ==> s in old(Bound()) || fresh(s)
    {
      ghost var screen, step;
      done', popped', screen, step := PopStep(ids, before, done, all, popped, orig, pending, held);
      src' := if step != [] then src[screen.id := screen] else src;
    }

    /**
     * The accounting of one round of DeleteAllScreens: pops `screen`, and
     * suspends the id in `step`, if any, with a copy of it.
     */
    method PopStep(ghost ids: map<NotificationScreen, int>, ghost before: map<int, NotificationScreen?>, ghost done: seq<int>,
                   ghost all: seq<int>, ghost popped: set<NotificationScreen>,
                   ghost orig: seq<NotificationScreen>, ghost pending: seq<NotificationScreen>, ghost held: seq<int>)
      returns (ghost done': seq<int>, ghost popped': set<NotificationScreen>, screen: NotificationScreen, ghost step: seq<int>)
      requires Valid() && deletedScreens != []
      requires Popping(ids, before, done, all, popped, orig, pending, held)
      modifies this`deletedScreens, this`screens, this`registrations, this`suspended
      modifies screens`index, screens`position
      ensures Valid()
      ensures Popping(ids, before, done', all, popped', orig, pending, held)
      ensures done' == done + step && popped' == popped + {screen}
      ensures |deletedScreens| < |old(deletedScreens)|
      ensures old(Stacked()) ==> Stacked()
      ensures forall x :: x in screens ==> x in old(screens) && Offset(x) == old(Offset(x))
      ensures forall s :: s in Bound() ==> s in old(Bound()) || fresh(s)
      ensures forall i :: i in old(registrations) && i !in step ==> registrations[i] == old(registrations)[i]
      ensures step != [] ==>
        && step == [screen.id] && screen.id in registrations && registrations[screen.id] != null && fresh(registrations[screen.id])
        && registrations[screen.id].HoldsContentOf(screen)
    {
      assert forall i :: 0 <= i < |screens| ==> screens[i] in orig;
      screen, step := PopLast(ids, before, done);
      Regrouped(done, step, Reinstated(deletedScreens, ids, registrations.Keys));
      Regrouped(held, done, step);
      done' := done + step;
      WithoutTwice(orig, popped, {screen});
      popped' := popped + {screen};
    }

    /**
     * One round of DeleteAllScreens: takes the last screen due for deletion
     * off that list and pops it. ScreenDeleted then finds it due for deletion
     * only if it was on the list more than once; otherwise, when its id is
     * registered, the id gets a copy and is suspended (`step` is then that id).
     */
    method PopLast(ghost ids: map<NotificationScreen, int>, ghost before: map<int, NotificationScreen?>, ghost done: seq<int>)
      returns (screen: NotificationScreen, ghost step: seq<int>)
      requires Valid() && deletedScreens != [] && IdsAgree(deletedScreens, ids)
      requires CopiedSince(registrations, before, done)
      modifies this`deletedScreens, this`screens, this`registrations, this`suspended
      modifies screens`index, screens`position
      ensures Valid()
      ensures screen == old(deletedScreens[|deletedScreens| - 1])
      ensures forall s :: s in deletedScreens <==> s in old(deletedScreens) && s != screen
      ensures |deletedScreens| < |old(deletedScreens)|
      ensures IdsAgree(deletedScreens, ids)
      ensures screens == Without(old(screens), {screen})
      ensures old(Stacked()) ==> Stacked()
      ensures forall i :: 0 <= i < |old(screens)| && old(screens)[i] != screen ==>
        old(screens)[i].index == old(screens[i].index) - (if screen in old(screens)[..i] then 1 else 0)
      // every screen left keeps its rank minus its position
      ensures forall x :: x in screens ==> Offset(x) == old(Offset(x))
      ensures suspended == old(suspended) + step
      ensures Reinstated(old(deletedScreens), ids, old(registrations).Keys) == step + Reinstated(deletedScreens, ids, registrations.Keys)
      ensures CopiedSince(registrations, before, done + step)
      ensures forall s :: s in Bound() ==> s in old(Bound()) || fresh(s)
      // only the id suspended, if any, is bound anew: to a new copy that holds
      // the popped screen's content
      ensures forall i :: i in old(registrations) && i !in step ==> registrations[i] == old(registrations)[i]
      ensures step != [] ==>
        && step == [screen.id] && registrations[screen.id] != null && fresh(registrations[screen.id])
        && registrations[screen.id].HoldsContentOf(screen)
    {
      // the registration part touches neither the list nor any rank, so it is
      // done before the list part here, as in ScreenDeleted
      screen, step := ReleaseLast(ids, before, done);
      Unlist(screen);
    }

    /**
     * The bookkeeping half of one round of DeleteAllScreens: takes the last
     * screen due for deletion off that list and releases it. Release then
     * finds it due for deletion only if it was on the list more than once;
     * otherwise, when its id is registered, the id gets a copy and is
     * suspended (`step` is then that id).
     */
    method ReleaseLast(ghost ids: map<NotificationScreen, int>, ghost before: map<int, NotificationScreen?>, ghost done: seq<int>)
      returns (screen: NotificationScreen, ghost step: seq<int>)
      requires Valid() && deletedScreens != [] && IdsAgree(deletedScreens, ids)
      requires CopiedSince(registrations, before, done)
      modifies this`deletedScreens, this`registrations, this`suspended
      ensures Valid()
      ensures screen == old(deletedScreens[|deletedScreens| - 1])
      ensures forall s :: s in deletedScreens <==> s in old(deletedScreens) && s != screen
      ensures |deletedScreens| < |old(deletedScreens)|
      ensures IdsAgree(deletedScreens, ids)
      ensures suspended == old(suspended) + step
      ensures Reinstated(old(deletedScreens), ids, old(registrations).Keys) == step + Reinstated(deletedScreens, ids, registrations.Keys)
      ensures CopiedSince(registrations, before, done + step)
      ensures forall s :: s in Bound() ==> s in old(Bound()) || fresh(s)
      // only the id suspended, if any, is bound anew: to a new copy that holds
      // the released screen's content
      ensures forall i :: i in old(registrations) && i !in step ==> registrations[i] == old(registrations)[i]
      ensures step != [] ==>
        && step == [screen.id] && registrations[screen.id] != null && fresh(registrations[screen.id])
        && registrations[screen.id].HoldsContentOf(screen)
    {
      ghost var ds := deletedScreens;
      screen, step := TakeLast(ids);
      ghost var registrationsBefore := registrations;
      Release(screen);
      if step != [] {
        assert registrations[screen.id] !in before.Values;
      }
      CopiedOnward(registrationsBefore, registrations, before, done, screen.id, step);
      TakenLast(ds, ids, registrations.Keys);
    }

    /**
     * Takes the last screen off the list of screens due for deletion, before
     * it is released; `step` is the id releasing it will suspend.
     */
    method TakeLast(ghost ids: map<NotificationScreen, int>) returns (screen: NotificationScreen, ghost step: seq<int>)
      requires Valid() && deletedScreens != [] && IdsAgree(deletedScreens, ids)
      modifies this`deletedScreens
      ensures Valid()
      ensures screen == old(deletedScreens[|deletedScreens| - 1])
      ensures deletedScreens == old(deletedScreens[..|deletedScreens| - 1])
      ensures step == if screen.id in registrations && screen !in deletedScreens then [screen.id] else []
    {
      screen := deletedScreens[|deletedScreens| - 1];
      // taken off before the screen is released: Release then finds it due
      // for deletion only if it was on the list more than once
      deletedScreens := deletedScreens[..|deletedScreens| - 1];
      step := if screen.id in registrations && screen !in deletedScreens then [screen.id] else [];
    }

    /**
     * ProcessTimer: a screen whose timer ran out is popped from the screen
     * stack. A screen still registered under its id and not due for deletion
     * is replaced by an uncreated copy, and its id is suspended.
     */
    method ProcessTimer(screen: NotificationScreen)
      requires Valid() && screen.timer.Some?
      modifies this`deletedScreens, this`screens, this`registrations, this`suspended
      modifies screens`index, screens`position
      ensures Valid()
      ensures screens == Without(old(screens), {screen})
      ensures deletedScreens == Without(old(deletedScreens), {screen})
      ensures old(Stacked()) ==> Stacked()
      ensures screen.id in old(registrations) && screen !in old(deletedScreens) ==>
        && screen.id in registrations
        && suspended == old(suspended) + [screen.id]
        && var copy := registrations[screen.id];
           && copy != null && fresh(copy) && copy.HoldsContentOf(screen)
           && !copy.created && copy.update == AllFlags
      ensures !(screen.id in old(registrations) && screen !in old(deletedScreens)) ==>
        registrations == old(registrations) && suspended == old(suspended)
      ensures registrations.Keys == old(registrations).Keys
      ensures forall i :: i != screen.id && i in old(registrations) ==> registrations[i] == old(registrations)[i]
      ensures forall i :: 0 <= i < |old(screens)| && old(screens)[i] != screen ==>
        old(screens)[i].index == old(screens[i].index) - (if screen in old(screens)[..i] then 1 else 0)
      // every screen left keeps its rank minus its position
      ensures forall x :: x in screens ==> Offset(x) == old(Offset(x))
    {
      ScreenDeleted(screen);
    }

    /** ScreenCreated: a screen of another kind counts as created. */
    method ScreenCreated(h: StackedScreen) returns (created: bool)
      ensures h.OtherScreen? ==> created
      ensures h.NotificationRef? ==> (created <==> h.screen.created)
    {
      if !h.NotificationRef? {
        return true;
      }
      return h.screen.created;
    }
  }

  /**
   * Queue as written lets a client reach a registration it was never issued:
   * id 7 is queued by a client that does not own it, and processing the queue
   * on a fresh center registers 7, although `Register` issued no id at all.
   */
  method ForeignIdRegistered() returns (c: NotificationCenter)
    ensures 7 in c.registrations && 7 !in c.issued
  {
    c := new NotificationCenter();
    var n := Notification(7, 1, New, Plain, 5, map[], "", false);
    var accepted := c.Queue(n);
    assert c.notifications == [n];
    ghost var queued := c.notifications;
    ghost var parts, start := c.ProcessQueue(true, map[]);
    assert queued[0].id > 0;
  }

  /** The corrected Queue keeps the same client from queueing id 7 at all. */
  method ForeignIdDemoted() returns (c: NotificationCenter)
    ensures |c.notifications| == 1 && c.notifications[0].id == -1
    ensures c.IssuedQueue()
  {
    c := new NotificationCenter();
    var n := Notification(7, 1, New, Plain, 5, map[], "", false);
    var accepted := c.QueueDemoting(n);
  }

  /** Themes that fit the plain and the fullscreen notifications of the rank witness below. */
  const RankThemes: Themes := map[FullTheme := Window(Point(0, 0), 0, {}), PlainTheme := Window(Point(0, 0), 0, {})]

  /**
   * Two rounds of ProcessQueue's loop: a plain screen is shown at position 0,
   * then a fullscreen one for id 1 at position 1, which keeps rank 0.
   */
  method FullscreenSecond() returns (c: NotificationCenter, b: NotificationScreen)
    ensures fresh(c) && fresh(b) && c.Valid() && c.registrations == map[1 := b]
    ensures |c.screens| == 2 && c.screens[1] == b && b.fullscreen && b.index == 0
  {
    c := new NotificationCenter();
    ghost var first := c.ProcessNotification(Notification(0, 1, New, Plain, 5, map[], "", false), RankThemes);
    assert |c.screens| == 1;
    // the round as ProcessQueue's loop body runs it: ScreenFor, then Show
    var screen, created := c.ScreenFor(Notification(1, 1, New, Plain, 5, map[], "", true), RankThemes);
    c.Show(screen, created);
    b := screen;
  }

  /**
   * A listed fullscreen screen that takes in a non-fullscreen New
   * notification keeps its rank, so a round of ProcessQueue's loop can leave
   * the ranks out of step with the positions: id 1 turns non-fullscreen at
   * position 1 with rank 0.
   */
  method StaleRank() returns (c: NotificationCenter)
    ensures !c.Stacked()
  {
    var b;
    c, b := FullscreenSecond();
    var screen, created := c.ScreenFor(Notification(1, 1, New, Plain, 5, map[], "", false), RankThemes);
    c.Show(screen, created);
    assert c.screens[1] == b && !b.fullscreen && b.index == 0;
  }
}

=== FILE: lists.dfy ===
/**
 * The QList operations the notification center relies on (`contains`,
 * `indexOf`, `removeAll`), as functions on sequences, with the facts about
 * them that the center's proofs use.
 */
module Lists {

  /** No element occurs twice. */
  predicate NoDuplicates<T(==)>(s: seq<T>)
  {
    forall i, j :: 0 <= i < j < |s| ==> s[i] != s[j]
  }

  /** The elements of a list, as a set. */
  function Elements<T>(s: seq<T>): set<T>
  {
    set x | x in s
  }

  /**
   * `s` with every occurrence of every element of `drop` removed, the order of
   * the rest kept. QList::removeAll(x) is `Without(s, {x})`.
   */
  function Without<T(==)>(s: seq<T>, drop: set<T>): (r: seq<T>)
    ensures |r| <= |s|
    ensures forall x :: x in r ==> x in s && x !in drop
    ensures forall x :: x in s && x !in drop ==> x in r
    ensures NoDuplicates(s) ==> NoDuplicates(r)
  {
    if s == [] then []
    else if s[0] in drop then Without(s[1..], drop)
    else [s[0]] + Without(s[1..], drop)
  }

  /** QList::indexOf: the position of the first occurrence of `x`, or -1. */
  function IndexOf<T(==)>(s: seq<T>, x: T): (i: int)
    ensures -1 <= i < |s|
    ensures i == -1 <==> x !in s
    ensures 0 <= i ==> s[i] == x && x !in s[..i]
  {
    if s == [] then -1
    else if s[0] == x then 0
    else
      var j := IndexOf(s[1..], x);
      if j < 0 then -1 else j + 1
  }

  /** Removing nothing leaves the list as it is. */
  lemma {:induction false} WithoutNothing<T>(s: seq<T>)
    ensures Without(s, {}) == s
  {
    if s != [] {
      WithoutNothing(s[1..]);
    }
  }

  /** Two removals in a row are one removal of both sets. */
  lemma {:induction false} WithoutTwice<T>(s: seq<T>, a: set<T>, b: set<T>)
    ensures Without(Without(s, a), b) == Without(s, a + b)
  {
    if s != [] {
      WithoutTwice(s[1..], a, b);
      if s[0] !in a {
        assert Without(s, a) == [s[0]] + Without(s[1..], a);
        assert Without(s, a)[1..] == Without(s[1..], a);
      }
    }
  }

  /**
   * In a list without duplicates, removing the element at position `n` by
   * value takes out exactly that position.
   */
  lemma {:induction false} WithoutAt<T>(s: seq<T>, n: int)
    requires NoDuplicates(s) && 0 <= n < |s|
    ensures Without(s, {s[n]}) == s[..n] + s[n + 1..]
  {
    if n == 0 {
      assert s[n] !in s[1..];
      WithoutNothingOf(s[1..], {s[n]});
    } else {
      var rest := s[1..];
      assert NoDuplicates(rest);
      assert rest[n - 1] == s[n];
      WithoutAt(rest, n - 1);
      assert s[0] != s[n];
      calc {
        Without(s, {s[n]});
        [s[0]] + Without(rest, {s[n]});
        [s[0]] + (rest[..n - 1] + rest[n..]);
        { assert rest[..n - 1] == s[1..n]; assert rest[n..] == s[n + 1..]; }
        [s[0]] + (s[1..n] + s[n + 1..]);
        { assert [s[0]] + s[1..n] == s[..n]; }
        s[..n] + s[n + 1..];
      }
    }
  }

  /** Removing values that do not occur leaves the list as it is. */
  lemma {:induction false} WithoutNothingOf<T>(s: seq<T>, drop: set<T>)
    requires forall x :: x in s ==> x !in drop
    ensures Without(s, drop) == s
  {
    if s != [] {
      WithoutNothingOf(s[1..], drop);
    }
  }

  /** Appending in two steps is appending once: lists concatenate associatively. */
  lemma Regrouped<T>(a: seq<T>, b: seq<T>, c: seq<T>)
    ensures (a + b) + c == a + (b + c)
  {
  }

  /** Dropping the last element from the rest of a list leaves every other element. */
  lemma WithoutLast<T>(s: seq<T>)
    requires s != []
    ensures forall y :: y in Without(s[..|s| - 1], {s[|s| - 1]}) <==> y in s && y != s[|s| - 1]
  {
    assert s == s[..|s| - 1] + [s[|s| - 1]];
  }

  /** The lists `parts` joined in order. */
  function Flatten<T>(parts: seq<seq<T>>): seq<T>
  {
    if parts == [] then [] else Flatten(parts[..|parts| - 1]) + parts[|parts| - 1]
  }

  /** Joining one more list appends it. */
  lemma FlattenSnoc<T>(parts: seq<seq<T>>, last: seq<T>)
    ensures Flatten(parts + [last]) == Flatten(parts) + last
  {
    assert (parts + [last])[..|parts|] == parts;
  }

  /** The first element of a part is in the parts joined. */
  lemma {:induction false} FlattenHas<T>(parts: seq<seq<T>>, j: int)
    requires 0 <= j < |parts| && parts[j] != []
    ensures parts[j][0] in Flatten(parts)
  {
    var last := parts[..|parts| - 1];
    assert parts == last + [parts[|parts| - 1]];
    FlattenSnoc(last, parts[|parts| - 1]);
    if j < |parts| - 1 {
      assert last[j] == parts[j];
      FlattenHas(last, j);
    }
  }

  /** In a list without duplicates, the element at position `i` is found at `i`. */
  lemma IndexOfAt<T>(s: seq<T>, i: int)
    requires NoDuplicates(s) && 0 <= i < |s|
    ensures IndexOf(s, s[i]) == i
  {
    assert s[i] !in s[..IndexOf(s, s[i])] ==> IndexOf(s, s[i]) <= i;
  }

  /** An element of `s` is found at the same position after more is appended. */
  lemma {:induction false} IndexOfAppend<T>(s: seq<T>, t: seq<T>, x: T)
    requires x in s
    ensures IndexOf(s + t, x) == IndexOf(s, x)
  {
    if s[0] != x {
      assert (s + t)[1..] == s[1..] + t;
      IndexOfAppend(s[1..], t, x);
    }
  }

  /** In a list without duplicates, the element at `n` comes before position `i` iff `n < i`. */
  lemma Precedes<T>(s: seq<T>, n: int, i: int)
    requires NoDuplicates(s) && 0 <= n < |s| && 0 <= i < |s| && i != n
    ensures s[n] in s[..i] <==> n < i
  {
    if n < i {
      assert s[..i][n] == s[n];
    }
  }
}

=== FILE: notifications.dfy ===
/**
 * Notifications as the center receives them. A notification is a value: the
 * center stores the clone `Queue` makes, so storing the value is the clone.
 */
module Notifications {
  import opened Wrappers

  /** An opaque client pointer (`void *parent`); `NoClient` is the null pointer. */
  type Handle = nat

  const NoClient: Handle := 0

  /**
   * The notification's type. Only `Update` is told apart by the center and the
   * screens; every other type behaves as `New` does.
   */
  datatype NotificationType = New | Update | Other

  /** A picture carried inline (a QImage's pixels). */
  type Bitmap = seq<bv8>

  /** The image part of an image notification: an inline image and/or a path. */
  datatype Artwork = Artwork(image: Option<Bitmap>, path: Option<string>)

  /** The playback part of a playback notification: progress (-1 = none) and its text. */
  datatype Playback = Playback(progress: real, text: string)

  /**
   * The notification's class, told apart in the source with dynamic_cast:
   * a plain notification, an image one, a playback one, or a media one, which
   * is both an image and a playback notification.
   */
  datatype Kind =
    | Plain
    | Image(artwork: Artwork)
    | Progress(playback: Playback)
    | Media(mediaArtwork: Artwork, mediaPlayback: Playback)

  /** The result of dynamic_cast<MythImageNotification*>. */
  function ArtworkOf(k: Kind): Option<Artwork>
  {
    match k
    case Image(a) => Some(a)
    case Media(a, _) => Some(a)
    case _ => None
  }

  /** The result of dynamic_cast<MythPlaybackNotification*>. */
  function PlaybackOf(k: Kind): Option<Playback>
  {
    match k
    case Progress(p) => Some(p)
    case Media(_, p) => Some(p)
    case _ => None
  }

  /** DMAP: the metadata tags of a notification. */
  type MetaData = map<string, string>

  const TitleTag := "minm"
  const ArtistTag := "asar"
  const AlbumTag := "asal"
  const FormatTag := "asfm"

  /** `data[key]` on a const DMAP: a null string when the tag is missing. */
  function Tag(data: MetaData, key: string): Option<string>
  {
    if key in data then Some(data[key]) else None
  }

  /**
   * id: 0 anonymous, > 0 a registration; duration in seconds (negative:
   * persistent); parent: the submitting client.
   */
  datatype Notification = Notification(
    id: int,
    parent: Handle,
    ntype: NotificationType,
    kind: Kind,
    duration: int,
    metadata: MetaData,
    style: string,
    fullscreen: bool)
}

=== FILE: screen.dfy ===
/**
 * MythUINotificationScreen: one on-screen notification. Its fields are
 * updated in place by the notification center; the widgets it draws into are
 * reduced to what a refresh would show in each of them.
 */
module Screens {
  import opened Wrappers
  import opened Notifications
  import opened Themes
  import opened Stacking

  /** A content/update bitmask. */
  type Mask = bv32

  /** kNone, kImage, kDuration, kMetaData, kStyle and kAll. */
  const NoFlags: Mask := 0
  const ImageFlag: Mask := 1
  const DurationFlag: Mask := 2
  const MetaDataFlag: Mask := 4
  const StyleFlag: Mask := 8
  const AllFlags: Mask := 0xFFFF_FFFF

  /** `flag` is set in `m`. */
  predicate Has(m: Mask, flag: Mask)
  {
    m & flag != 0
  }

  /** DEFAULT_DURATION: the shortest timer a screen arms, in ms. */
  const DefaultDuration := 5000

  /**
   * The single-shot interval armed for a duration of `s` seconds: `s * 1000`
   * ms, raised to DEFAULT_DURATION when it is not above it.
   */
  function ArmedInterval(s: int): (ms: int)
    ensures ms >= DefaultDuration && ms >= s * 1000
    ensures ms == s * 1000 || ms == DefaultDuration
  {
    var ms := s * 1000;
    if ms <= DefaultDuration then DefaultDuration else ms
  }

  /**
   * The update bits SetNotification computes for a notification: the image bit
   * for an image notification, the duration bit for a playback one, the
   * metadata bit when metadata is present or the notification is not an
   * update, the style bit when a style is named, and no other bit.
   */
  function UpdateFlags(n: Notification): (f: Mask)
    ensures Has(f, ImageFlag) <==> ArtworkOf(n.kind).Some?
    ensures Has(f, DurationFlag) <==> PlaybackOf(n.kind).Some?
    ensures Has(f, MetaDataFlag) <==> n.metadata != map[] || n.ntype != Update
    ensures Has(f, StyleFlag) <==> n.style != ""
    ensures f & !(ImageFlag | DurationFlag | MetaDataFlag | StyleFlag) == 0
  {
    (if ArtworkOf(n.kind).Some? then ImageFlag else NoFlags)
    | (if PlaybackOf(n.kind).Some? then DurationFlag else NoFlags)
    | (if n.metadata != map[] || n.ntype != Update then MetaDataFlag else NoFlags)
    | (if n.style != "" then StyleFlag else NoFlags)
  }

  /** The update bit that decides whether Init refreshes a widget. */
  function Governing(w: Widget): Mask
  {
    match w
    case ImageWidget => ImageFlag
    case ProgressText => DurationFlag
    case ProgressBar => DurationFlag
    case _ => MetaDataFlag
  }

  /** m_title, m_artist, m_album and m_format; None is a null string. */
  datatype Tags = Tags(title: Option<string>, artist: Option<string>, album: Option<string>, format: Option<string>)

  const NoTags := Tags(None, None, None, None)

  /** The four tags as read from a DMAP: a missing tag reads as a null string. */
  function TagsOf(data: MetaData): Tags
  {
    Tags(Tag(data, TitleTag), Tag(data, ArtistTag), Tag(data, AlbumTag), Tag(data, FormatTag))
  }

  /**
   * One field as UpdateMetaData sets it: the incoming value, except that a
   * null incoming value leaves the field alone while `keepOnNull` holds.
   */
  function Merge(current: Option<string>, incoming: Option<string>, keepOnNull: bool): (r: Option<string>)
    ensures incoming.Some? ==> r == incoming
    ensures incoming.None? ==> (r == current <==> keepOnNull || current.None?)
    ensures incoming.None? && !keepOnNull ==> r == None
  {
    if incoming.None? && keepOnNull then current else incoming
  }

  /** What Init leaves in a widget it refreshes; `Reset` shows the theme's default. */
  datatype Refresh =
    | ShowFile(path: string)
    | ShowBitmap(bitmap: Bitmap)
    | ShowText(text: string)
    | ShowProgress(progress: real)
    | Reset

  /** A text widget shows its field, or the theme default when the field is null. */
  function TextRefresh(field: Option<string>): Refresh
  {
    if field.Some? then ShowText(field.value) else Reset
  }

  /** What one Init pass did to each widget: None when it left the widget alone. */
  datatype Refreshed = Refreshed(
    image: Option<Refresh>,
    title: Option<Refresh>,
    origin: Option<Refresh>,
    description: Option<Refresh>,
    extra: Option<Refresh>,
    progressText: Option<Refresh>,
    progressBar: Option<Refresh>)

  const Origin := Point(0, 0)

  /**
   * The artwork after taking in `n`: an image notification replaces the path
   * when it carries one, the inline image otherwise; the other part stays.
   */
  function AdoptedArtwork(current: Artwork, n: Notification): (r: Artwork)
    ensures ArtworkOf(n.kind).None? ==> r == current
    ensures ArtworkOf(n.kind).Some? && ArtworkOf(n.kind).value.path.Some? ==>
      r.path == ArtworkOf(n.kind).value.path && r.image == current.image
    ensures ArtworkOf(n.kind).Some? && ArtworkOf(n.kind).value.path.None? ==>
      r.image == ArtworkOf(n.kind).value.image && r.path == current.path
  {
    match ArtworkOf(n.kind)
    case None => current
    case Some(a) => if a.path.None? then current.(image := a.image) else current.(path := a.path)
  }

  /**
   * The part of a screen that notifications fill in: its id, artwork,
   * playback, tags, style, latched content bits and fullscreen flag, duration
   * and armed timer.
   */
  datatype Payload = Payload(id: int, artwork: Artwork, playback: Playback, tags: Tags, style: string,
                             latched: Mask, fullscreen: bool, duration: int, timer: Option<int>)

  /**
   * The payload after taking in `n`: the parts `n` carries are adopted, a
   * non-update latches its content bits and fullscreen flag, the duration is
   * always taken and the timer re-armed unless a registered id is given a
   * negative duration.
   */
  function Received(p: Payload, n: Notification): Payload
  {
    p.(artwork := AdoptedArtwork(p.artwork, n),
       playback := if PlaybackOf(n.kind).Some? then PlaybackOf(n.kind).value else p.playback,
       tags := if n.metadata != map[] then TagsOf(n.metadata) else p.tags,
       style := if n.style != "" then n.style else p.style,
       latched := if n.ntype == Update then p.latched else UpdateFlags(n),
       fullscreen := if n.ntype == Update then p.fullscreen else n.fullscreen,
       duration := n.duration,
       timer := if p.id > 0 && n.duration < 0 then p.timer else Some(ArmedInterval(n.duration)))
  }

  /** The payload of a screen built for a notification with id `id` and duration `d`, before it takes the notification in. */
  function Blank(id: int, d: int): Payload
  {
    Payload(id, Artwork(None, None), Playback(-1.0, ""), NoTags, "", NoFlags, false, d, None)
  }

  /** The payload of a screen made from `n`. */
  function Made(n: Notification): Payload
  {
    Received(Blank(n.id, n.duration), n)
  }

  /**
   * Taking in the same notification twice is taking it in once: every part it
   * sets, it sets to a value that does not depend on what was there.
   */
  lemma ReceivedTwice(p: Payload, n: Notification)
    ensures Received(Received(p, n), n) == Received(p, n)
  {
  }

  /**
   * An update notification carrying nothing but a style changes only the
   * style, the duration and the timer.
   */
  lemma StyleOnlyUpdate(p: Payload, n: Notification)
    requires n.ntype == Update && ArtworkOf(n.kind).None? && PlaybackOf(n.kind).None? && n.metadata == map[]
    ensures var r := Received(p, n);
      r.(style := p.style, duration := p.duration, timer := p.timer) == p
  {
  }

  class NotificationScreen {
    var id: int
    var duration: int
    /** m_progress and m_progressText. */
    var playback: Playback
    var fullscreen: bool
    var added: bool
    var created: bool
    var content: Mask
    var update: Mask
    /** m_image and m_imagePath. */
    var artwork: Artwork
    var tags: Tags
    var style: string
    var index: int
    /** The single-shot timer: the interval it was last armed with, in ms, or None. */
    var timer: Option<int>
    /** m_position: where the theme placed the screen. */
    var basePosition: Point
    /** The screen's current position on the display. */
    var position: Point
    var height: int
    /** The child widgets the loaded theme provides. */
    var widgets: set<Widget>

    /**
     * A screen built for a notification: fields at their initial values, then
     * SetNotification.
     */
    constructor FromNotification(n: Notification)
      ensures id == n.id && duration == n.duration && index == 0
      ensures !created && !added
      ensures update == UpdateFlags(n)
      ensures content == (if n.ntype == Update then NoFlags else UpdateFlags(n))
      ensures fullscreen == (n.ntype != Update && n.fullscreen)
      ensures style == n.style
      ensures tags == (if n.metadata != map[] then TagsOf(n.metadata) else NoTags)
      ensures artwork == AdoptedArtwork(Artwork(None, None), n)
      ensures playback == (if PlaybackOf(n.kind).Some? then PlaybackOf(n.kind).value else Playback(-1.0, ""))
      ensures timer == (if n.id > 0 && n.duration < 0 then None else Some(ArmedInterval(n.duration)))
      ensures basePosition == position == Origin && height == 0 && widgets == {}
      ensures Held() == Made(n)
    {
      id := n.id;
      duration := n.duration;
      playback := Playback(-1.0, "");
      fullscreen := false;
      added := false;
      created := false;
      content := NoFlags;
      update := AllFlags;
      artwork := Artwork(None, None);
      tags := NoTags;
      style := "";
      index := 0;
      timer := None;
      basePosition, position, height, widgets := Origin, Origin, 0, {};
      new;
      SetNotification(n);
    }

    /**
     * The copy constructor: a screen holding another's content, not yet
     * created nor added, with every field due for a refresh and no timer armed.
     */
    constructor Copy(s: NotificationScreen)
      ensures HoldsContentOf(s)
      ensures update == AllFlags
      ensures !created && !added && timer == None
      ensures basePosition == position == Origin && height == 0 && widgets == {}
    {
      duration := -1;
      playback := Playback(-1.0, "");
      fullscreen := false;
      added := false;
      created := false;
      content := NoFlags;
      update := AllFlags;
      artwork := Artwork(None, None);
      tags := NoTags;
      style := "";
      timer := None;
      basePosition, position, height, widgets := Origin, Origin, 0, {};
      new;
      Assign(s);
    }

    /** The fields operator= copies agree with those of `s`. */
    ghost predicate HoldsContentOf(s: NotificationScreen)
      reads this`id, this`artwork, this`tags, this`duration, this`playback, this`content,
        this`fullscreen, this`index, this`style
      reads s`id, s`artwork, s`tags, s`duration, s`playback, s`content, s`fullscreen, s`index, s`style
    {
      (id, artwork, tags, duration, playback, content, fullscreen, index, style)
        == (s.id, s.artwork, s.tags, s.duration, s.playback, s.content, s.fullscreen, s.index, s.style)
    }

    /** The screen's payload, as one value. */
    function Held(): Payload
      reads this`id, this`artwork, this`playback, this`tags, this`style, this`content,
        this`fullscreen, this`duration, this`timer
    {
      Payload(id, artwork, playback, tags, style, content, fullscreen, duration, timer)
    }

    /** operator=: copies the content of `s` and marks every field for refresh. */
    method Assign(s: NotificationScreen)
      modifies this`id, this`artwork, this`tags, this`duration, this`playback, this`content,
        this`fullscreen, this`index, this`style, this`update
      ensures HoldsContentOf(s)
      ensures update == AllFlags
    {
      id := s.id;
      artwork := s.artwork;
      tags := s.tags;
      duration := s.duration;
      playback := s.playback;
      content := s.content;
      fullscreen := s.fullscreen;
      index := s.index;
      style := s.style;
      // so that every field is refreshed whatever the next notification's type
      update := AllFlags;
    }

    /**
     * Takes in a notification: recomputes the update bits, adopts the parts the
     * notification carries, latches content and fullscreen for a non-update
     * notification, and re-arms the timer.
     */
    method SetNotification(n: Notification)
      modifies this`update, this`artwork, this`playback, this`tags, this`style, this`content,
        this`fullscreen, this`duration, this`timer
      ensures update == UpdateFlags(n)
      ensures artwork == AdoptedArtwork(old(artwork), n)
      ensures playback == (if PlaybackOf(n.kind).Some? then PlaybackOf(n.kind).value else old(playback))
      // with metadata present all four tags are overwritten, a missing one with a null string
      ensures tags == (if n.metadata != map[] then TagsOf(n.metadata) else old(tags))
      ensures style == (if n.style != "" then n.style else old(style))
      ensures content == (if n.ntype == Update then old(content) else UpdateFlags(n))
      ensures fullscreen == (if n.ntype == Update then old(fullscreen) else n.fullscreen)
      ensures duration == n.duration
      ensures timer == (if id > 0 && n.duration < 0 then old(timer) else Some(ArmedInterval(n.duration)))
      ensures Held() == Received(old(Held()), n)
    {
      var flags := TakeParts(n);
      if n.ntype != Update {
        content := flags;
        fullscreen := n.fullscreen;
      }
      duration := n.duration;
      SetSingleShotTimer(duration);
    }

    /**
     * The first part of SetNotification: adopts the artwork, playback,
     * metadata and style the notification carries and gathers the update bits.
     */
    method TakeParts(n: Notification) returns (flags: Mask)
      modifies this`update, this`artwork, this`playback, this`tags, this`style
      ensures flags == UpdateFlags(n) && update == flags
      ensures artwork == AdoptedArtwork(old(artwork), n)
      ensures playback == (if PlaybackOf(n.kind).Some? then PlaybackOf(n.kind).value else old(playback))
      ensures tags == (if n.metadata != map[] then TagsOf(n.metadata) else old(tags))
      ensures style == (if n.style != "" then n.style else old(style))
    {
      // m_update is cleared first, since UpdateMetaData reads it
      flags := NoFlags;
      update := flags;

      var img := ArtworkOf(n.kind);
      if img.Some? {
        flags := flags | ImageFlag;
        if img.value.path.None? {
          UpdateArtworkImage(img.value.image);
        } else {
          UpdateArtworkPath(img.value.path);
        }
      }

      var play := PlaybackOf(n.kind);
      if play.Some? {
        UpdatePlayback(play.value.progress, play.value.text);
        flags := flags | DurationFlag;
      }

      if n.metadata != map[] {
        update := flags;
        UpdateMetaData(n.metadata);
        flags := flags | MetaDataFlag;
      } else if n.ntype != Update {
        // kMetaData is set for a non-update type even without a DMAP
        flags := flags | MetaDataFlag;
      }

      if n.style != "" {
        style := n.style;
        flags := flags | StyleFlag;
      }
      update := flags;
    }

    /** UpdateArtwork(const QImage &): adopts the inline image. */
    method UpdateArtworkImage(img: Option<Bitmap>)
      modifies this`artwork
      ensures artwork == old(artwork).(image := img)
    {
      artwork := artwork.(image := img);
    }

    /** UpdateArtwork(const QString &): adopts the image path. */
    method UpdateArtworkPath(path: Option<string>)
      modifies this`artwork
      ensures artwork == old(artwork).(path := path)
    {
      artwork := artwork.(path := path);
    }

    /** Adopts the playback position and its text. */
    method UpdatePlayback(progress: real, text: string)
      modifies this`playback
      ensures playback == Playback(progress, text)
    {
      playback := Playback(progress, text);
    }

    /**
     * Reads title, artist, album and format from their tags. A missing tag
     * clears its field, except that it leaves the field alone while the
     * metadata update bit is set.
     */
    method UpdateMetaData(data: MetaData)
      modifies this`tags
      ensures var keep := Has(update, MetaDataFlag);
        tags == Tags(Merge(old(tags.title), Tag(data, TitleTag), keep),
                     Merge(old(tags.artist), Tag(data, ArtistTag), keep),
                     Merge(old(tags.album), Tag(data, AlbumTag), keep),
                     Merge(old(tags.format), Tag(data, FormatTag), keep))
      ensures !Has(update, MetaDataFlag) ==> tags == TagsOf(data)
    {
      var title, artist, album, format := tags.title, tags.artist, tags.album, tags.format;
      var tmp := Tag(data, TitleTag);
      if !(tmp.None? && Has(update, MetaDataFlag)) {
        title := tmp;
      }
      tmp := Tag(data, ArtistTag);
      if !(tmp.None? && Has(update, MetaDataFlag)) {
        artist := tmp;
      }
      tmp := Tag(data, AlbumTag);
      if !(tmp.None? && Has(update, MetaDataFlag)) {
        album := tmp;
      }
      tmp := Tag(data, FormatTag);
      if !(tmp.None? && Has(update, MetaDataFlag)) {
        format := tmp;
      }
      tags := Tags(title, artist, album, format);
    }

    /**
     * Arms the single-shot timer for `s` seconds, except that a registered
     * screen given a negative duration keeps whatever timer it had.
     */
    method SetSingleShotTimer(s: int)
      modifies this`timer
      ensures id > 0 && s < 0 ==> timer == old(timer)
      ensures !(id > 0 && s < 0) ==> timer == Some(ArmedInterval(s))
    {
      // a negative duration on a positive id returns before the timer is touched
      if id > 0 && s < 0 {
        return;
      }
      var ms := s * 1000;
      ms := if ms <= DefaultDuration then DefaultDuration else ms;
      timer := Some(ms);
    }

    /** Where the screen belongs for its rank: its theme position, moved down by rank. */
    function Target(): (p: Point)
      reads this`basePosition, this`height, this`index
      ensures p.x == basePosition.x
      ensures p.y - basePosition.y == (height + HGap) * index
    {
      Point(basePosition.x, TargetY(basePosition.y, height, index))
    }

    /** Moves the screen to where its rank puts it; `moved` tells whether it had to move. */
    method AdjustYPosition() returns (moved: bool)
      modifies this`position
      ensures position == Target()
      ensures moved <==> old(position) != Target()
    {
      var point := Point(basePosition.x, basePosition.y + (height + HGap) * index);
      if point == position {
        return false;
      }
      position := point;
      return true;
    }

    /** Sets the rank to `amount` (absolute) or moves it by `amount`, then repositions. */
    method AdjustIndex(amount: int, absolute: bool)
      modifies this`index, this`position
      ensures Held() == old(Held())
      ensures index == (if absolute then amount else old(index) + amount)
      ensures position == Target()
    {
      if absolute {
        index := amount;
      } else {
        index := index + amount;
      }
      var _ := AdjustYPosition();
    }

    /**
     * Create: loads the window for the chosen theme name and remembers its
     * position, height and children. Fails, changing nothing, when the theme
     * has no such window.
     */
    method Create(themes: Themes) returns (ok: bool)
      modifies this`created, this`position, this`basePosition, this`height, this`widgets
      ensures Held() == old(Held())
      ensures ok == ResolveTheme(fullscreen, Has(content, ImageFlag), style, themes).Some?
      ensures ok ==>
        var w := themes[ResolveTheme(fullscreen, Has(content, ImageFlag), style, themes).value];
        created && position == basePosition == w.position && height == w.height && widgets == w.children
      ensures !ok ==>
        created == old(created) && position == old(position) && basePosition == old(basePosition)
        && height == old(height) && widgets == old(widgets)
    {
      var theme := MainTheme(fullscreen, Has(content, ImageFlag));
      var attempt := StyledTheme(theme, style);
      var found := attempt in themes;
      var loaded := attempt;
      if !found && attempt != theme {
        // the styled variant is missing: fall back to the main theme
        found := theme in themes;
        loaded := theme;
      }
      if !found {
        return false;
      }
      var w := themes[loaded];
      position, height, widgets := w.position, w.height, w.children;
      basePosition := position;
      created := true;
      return true;
    }

    /** What a refresh of widget `w` shows. */
    function RefreshOf(w: Widget): Refresh
      reads this`widgets, this`update, this`artwork, this`tags, this`playback
    {
      match w
      case ImageWidget =>
        if artwork.path.Some? then ShowFile(artwork.path.value)
        else if artwork.image.Some? then ShowBitmap(artwork.image.value)
        else Reset
      case TitleText => TextRefresh(tags.title)
      case OriginText => TextRefresh(tags.artist)
      case DescriptionText => TextRefresh(tags.album)
      case ExtraText => TextRefresh(tags.format)
      case ProgressText => if playback.text != "" then ShowText(playback.text) else Reset
      case ProgressBar => if playback.progress >= 0.0 then ShowProgress(playback.progress) else Reset
    }

    /** Whether Init refreshes widget `w`, and with what. */
    function RefreshIfDue(w: Widget): Option<Refresh>
      reads this`widgets, this`update, this`artwork, this`tags, this`playback
    {
      if w in widgets && Has(update, Governing(w)) then Some(RefreshOf(w)) else None
    }

    /** What the next Init would do to each widget. */
    function Refreshes(): Refreshed
      reads this`widgets, this`update, this`artwork, this`tags, this`playback
    {
      Refreshed(RefreshIfDue(ImageWidget), RefreshIfDue(TitleText), RefreshIfDue(OriginText),
                RefreshIfDue(DescriptionText), RefreshIfDue(ExtraText), RefreshIfDue(ProgressText),
                RefreshIfDue(ProgressBar))
    }

    /**
     * Init: moves the screen to its rank, refreshes the widgets whose update
     * bit is set, shows the progress widgets only for duration content, clears
     * the update bits, so that a second Init refreshes nothing, and adds the
     * screen to the screen stack the first time.
     */
    method Init() returns (refreshed: Refreshed, barShown: Option<bool>, timeShown: Option<bool>, pushed: bool)
      modifies this`position, this`update, this`added
      ensures Held() == old(Held())
      ensures position == Target()
      ensures refreshed == old(Refreshes())
      ensures Refreshes() == Refreshed(None, None, None, None, None, None, None)
      // the progress widgets the theme has are shown iff the content has a duration
      ensures barShown == if ProgressBar in widgets then Some(Has(content, DurationFlag)) else None
      ensures timeShown == if ProgressText in widgets then Some(Has(content, DurationFlag)) else None
      ensures update == NoFlags
      ensures added && (pushed <==> !old(added))
    {
      var _ := AdjustYPosition();
      refreshed := Refreshes();
      barShown := if ProgressBar in widgets then Some(Has(content, DurationFlag)) else None;
      timeShown := if ProgressText in widgets then Some(Has(content, DurationFlag)) else None;

      // the refresh bits are spent: the next refresh shows only what a later notification marks
      update := NoFlags;

      pushed := !added;
      if !added {
        added := true;
      }
    }
  }

  /** The entry of `r` for widget `w`. */
  function Slot(r: Refreshed, w: Widget): Option<Refresh>
  {
    match w
    case ImageWidget => r.image
    case TitleText => r.title
    case OriginText => r.origin
    case DescriptionText => r.description
    case ExtraText => r.extra
    case ProgressText => r.progressText
    case ProgressBar => r.progressBar
  }

  /**
   * Whether notification `n` carries what widget `w` shows: artwork for the
   * image, playback for the progress widgets, and metadata (which every
   * notification but an update without metadata resets) for the texts.
   */
  predicate Carries(n: Notification, w: Widget)
  {
    match w
    case ImageWidget => ArtworkOf(n.kind).Some?
    case ProgressText => PlaybackOf(n.kind).Some?
    case ProgressBar => PlaybackOf(n.kind).Some?
    case _ => n.ntype != Update || n.metadata != map[]
  }

  /**
   * With every update bit set, as a copied screen has them, the next Init
   * refreshes every widget the theme has, each with the screen's content.
   */
  lemma FullRefresh(s: NotificationScreen)
    requires s.update == AllFlags
    ensures forall w :: Slot(s.Refreshes(), w) == if w in s.widgets then Some(s.RefreshOf(w)) else None
  {
  }

  /**
   * After SetNotification(n) the next Init refreshes exactly the widgets the
   * theme has and `n` carries content for: an update notification with only
   * a new style refreshes nothing, a new one always resets the texts.
   */
  lemma RefreshFollowsNotification(s: NotificationScreen, n: Notification)
    requires s.update == UpdateFlags(n)
    ensures forall w :: Slot(s.Refreshes(), w).Some? <==> w in s.widgets && Carries(n, w)
    ensures forall w :: Slot(s.Refreshes(), w).Some? ==> Slot(s.Refreshes(), w).value == s.RefreshOf(w)
  {
  }
}

=== FILE: stacking.dfy ===
/**
 * The vertical stacking of notification screens: a screen's rank gives its
 * y offset below the position its theme places it at.
 */
module Stacking {

  /** Vertical gap between two stacked screens (HGAP). */
  const HGap := 5

  /** The y coordinate of a screen of the given height at the given rank. */
  function TargetY(baseY: int, height: int, rank: int): int
  {
    baseY + (height + HGap) * rank
  }

  /**
   * Two screens of one theme stacked at different ranks never overlap: the
   * lower one starts at least its height plus the gap below the upper one.
   */
  lemma {:induction false} RanksDoNotOverlap(baseY: int, height: int, i: int, j: int)
    requires 0 <= height && i < j
    ensures TargetY(baseY, height, i) + height + HGap <= TargetY(baseY, height, j)
  {
    var g := height + HGap;
    assert g * j == g * i + g * (j - i);
    assert g * (j - i) >= g by {
      assert j - i >= 1;
      assert g * (j - i) == g + g * (j - i - 1);
      assert g * (j - i - 1) >= 0;
    }
  }
}

=== FILE: themes.dfy ===
/**
 * Theme-name choice of MythUINotificationScreen::Create. Loading the window
 * from notification-ui.xml is abstracted to a table of the window names the
 * theme defines and what loading each yields.
 */
module Themes {
  import opened Wrappers

  datatype Point = Point(x: int, y: int)

  /** The child widgets a notification theme may provide, by logical name. */
  datatype Widget =
    | ImageWidget        // "image"
    | TitleText          // "title"
    | OriginText         // "origin"
    | DescriptionText    // "description"
    | ExtraText          // "extra"
    | ProgressText       // "progress_text"
    | ProgressBar        // "progress"

  /** What loading a window definition yields: its position, height and children. */
  datatype Window = Window(position: Point, height: int, children: set<Widget>)

  /** The window definitions notification-ui.xml provides, by name. */
  type Themes = map<string, Window>

  const FullTheme := "notification-full"
  const ImageTheme := "notification-image"
  const PlainTheme := "notification"

  /** The main theme name: fullscreen first, then image, else the plain one. */
  function MainTheme(fullscreen: bool, hasImage: bool): string
  {
    if fullscreen then FullTheme
    else if hasImage then ImageTheme
    else PlainTheme
  }

  /** The styled variant tried first: the main name, suffixed by "-style" when a style is set. */
  function StyledTheme(main: string, style: string): string
  {
    main + (if style == "" then "" else "-" + style)
  }

  /**
   * The window name the screen ends up loaded from, or None when neither the
   * styled variant nor (when it differs) the main theme exists.
   */
  function ResolveTheme(fullscreen: bool, hasImage: bool, style: string, themes: Themes): (r: Option<string>)
    ensures r.Some? ==> r.value in themes
    ensures r.Some? <==>
      StyledTheme(MainTheme(fullscreen, hasImage), style) in themes || MainTheme(fullscreen, hasImage) in themes
    ensures StyledTheme(MainTheme(fullscreen, hasImage), style) in themes ==>
      r == Some(StyledTheme(MainTheme(fullscreen, hasImage), style))
    ensures r.Some? ==>
      r.value == StyledTheme(MainTheme(fullscreen, hasImage), style) || r.value == MainTheme(fullscreen, hasImage)
  {
    var theme := MainTheme(fullscreen, hasImage);
    var attempt := StyledTheme(theme, style);
    if attempt in themes then Some(attempt)
    else if attempt != theme && theme in themes then Some(theme)
    else None
  }
}

=== FILE: wrappers.dfy ===
/** Optional values: a null QString, a null QImage or a null pointer is `None`. */
module Wrappers {

  datatype Option<+T> = None | Some(value: T)
}
